=== FILE: README.md ===
# COP-Lights control core in Dafny

A model of the control logic of an addressable-LED-strip project: the
browser control panel that chooses a panel and mirrors the device's power
state, its two panels (the animation list and the colour picker), and the
firmware's animation table and deterministic per-frame pixel logic.

- **Shell** (`MenuContent`): the state record `{power, mobileOpen, contentId}`
  with the drawer toggle, menu selection, and adoption of a status or toggle
  reply as pure transitions; the content registry (`animations`, `effects`
  only); the power-button colour and the title/panel lookups. Replies are
  inputs to the transitions. `power` keeps the raw `status.powerOn` value
  (`Num | Bool | Other`), because the colour switch compares it strictly with
  the numbers 0 and 1.
- **Animation list** (`AnimationButtonList`): the list and selection state,
  the select URL and its reading back, and one button per animation.
- **Effect picker** (`EffectPicker`): the query string for a committed
  colour. A reference reader of that query (`ParseEffectQuery`: split on
  `&`, then on `=`, expecting the keys `r`, `g`, `b` in that order)
  recovers the three channels exactly; the device's own handler for the
  request is not part of this model. A run of colour changes never touches
  `primaryColor`.
- **Development proxy** (`DevProxy`): the rule that only `/api…` paths reach
  the device.
- **Firmware** (`Pixels`, `AnimationHelpers`, `AnimationFunctions`,
  `Animations`): a frame is its write log, meaning the `SetPixelColor` calls
  in order. `Apply` plays a log onto a strip whose length is given
  explicitly. `Dropped` lists the writes that fall outside the strip, so an
  overrun stays visible. The strip size, first LED and saturation are a
  `StripConfig` parameter. `DriverConfig` = (246, 1, 128) is the main
  firmware and `ChristmasConfig` = (56, 1, 128) the Christmas firmware.

Behaviours of the code worth noting:

- a boolean `powerOn: true` renders the power button red, not green;
- the animation requests go to `/animations/get` and `/animations/select`
  without the `/api` prefix, so the development proxy does not forward them
  (`AnimationButtonList.AnimationRequestsNotForwarded`);
- the effect request sends the raw `r`, `g`, `b` channels, with no alpha
  scaling and no `type` parameter;
- the registry has no developer panel.

The firmware loops that run "from `START_LED` to `LED_COUNT` inclusive"
write index `LED_COUNT`. That is one past the end of a strip constructed
with `LED_COUNT` pixels. The model keeps these writes and proves where
they fall.

## Model

| member | source | states |
|---|---|---|
| MenuContent.Initial | React-App/led-strip/src/js/components/MenuContent.js:99-103 | the shell starts with power the number 0, the drawer closed and the animations panel, which is registered |
| MenuContent.HandleDrawerToggle | React-App/led-strip/src/js/components/MenuContent.js:107-111 | the toggle flips `mobileOpen` and leaves power and panel unchanged |
| MenuContent.DrawerToggleTwiceRestores | React-App/led-strip/src/js/components/MenuContent.js:107-111 | two toggles restore the original state |
| MenuContent.HandleMenuButtonClick | React-App/led-strip/src/js/components/MenuContent.js:114-119 | selecting an id shows that panel and closes the drawer whatever its prior state; power is unchanged |
| MenuContent.MenuButtonClickIdempotent | React-App/led-strip/src/js/components/MenuContent.js:114-119 | repeating a selection changes nothing further |
| MenuContent.AdoptStatus | React-App/led-strip/src/js/components/MenuContent.js:122-141 | a reply with `status` sets power to exactly `status.powerOn`; a failed request or a body without `status` changes nothing; drawer and panel are kept |
| MenuContent.AdoptedPowerIgnoresPrior | React-App/led-strip/src/js/components/MenuContent.js:133-141 | after a toggle reply the power value does not depend on the value held before: no client-side negation |
| MenuContent.PowerChangesOnlyByReply | React-App/led-strip/src/js/components/MenuContent.js:106-141 | across all events, power changes only on a status or toggle reply carrying a value, and becomes that value |
| MenuContent.RunPowerFromReplies | React-App/led-strip/src/js/components/MenuContent.js:122-141 | after any event sequence the power value is the initial one or one delivered by a reply |
| MenuContent.Step | React-App/led-strip/src/js/components/MenuContent.js:122-141 | mounting sends the status request and the power button the toggle request, neither changing state; the drawer, menu and reply events go to their handlers and send nothing |
| MenuContent.ButtonColor | React-App/led-strip/src/js/components/MenuContent.js:144-160 | green exactly when power is the number 1; red for 0 and every other value, the boolean `true` included |
| MenuContent.VisibleTitle | React-App/led-strip/src/js/components/MenuContent.js:168-170 | the title is defined exactly for registered ids and is the registry's title |
| MenuContent.VisibleContent | React-App/led-strip/src/js/components/MenuContent.js:163-165 | the panel is defined exactly for registered ids and is the registry's panel |
| MenuContent.RegistryCoversMenu | React-App/led-strip/src/js/components/MenuContent.js:34-43 | the registry holds exactly `animations` (title Animations) and `effects` (title Effects), covering both menu ids |
| MenuContent.RunKeepsContentRegistered | React-App/led-strip/src/js/components/MenuContent.js:180-206 | for any sequence of menu clicks and replies from a registered state, title and panel lookups stay defined |
| MenuContent.ShellRequestsForwarded | React-App/led-strip/webpack.config.js:62-66 | the status and toggle requests pass the development proxy |
| AnimationButtonList.Initial | React-App/led-strip/src/js/components/AnimationButtonList.js:16-19 | the panel starts with no animations and no selection |
| AnimationButtonList.AdoptList | React-App/led-strip/src/js/components/AnimationButtonList.js:23-30 | a list reply replaces the list wholesale and keeps the selection; a failed request changes nothing |
| AnimationButtonList.SelectUrl | React-App/led-strip/src/js/components/AnimationButtonList.js:35 | the request is `/animations/select?id=` followed by the id, and reading it back gives the id |
| AnimationButtonList.SelectUrlInjective | React-App/led-strip/src/js/components/AnimationButtonList.js:35 | different ids give different requests |
| AnimationButtonList.AdoptSelection | React-App/led-strip/src/js/components/AnimationButtonList.js:34-41 | the selection becomes the server's `result.id`, not necessarily the requested id; the list is unchanged |
| AnimationButtonList.Buttons | React-App/led-strip/src/js/components/AnimationButtonList.js:51-57 | one button per animation, in list order, captioned with its name |
| AnimationButtonList.ButtonSelectsItsAnimation | React-App/led-strip/src/js/components/AnimationButtonList.js:53 | the i-th button's request carries the i-th animation's id |
| AnimationButtonList.AnimationRequestsNotForwarded | React-App/led-strip/src/js/components/AnimationButtonList.js:24-35 | neither animation request starts with `/api`, so the development proxy does not forward it to the device |
| AnimationButtonList.Step | React-App/led-strip/src/js/components/AnimationButtonList.js:23-57 | mounting sends the list request and a click on button i the select request for animations[i].id, neither changing state; the list and select replies go to their handlers and send nothing |
| AnimationButtonList.RunFollowsReplies | React-App/led-strip/src/js/components/AnimationButtonList.js:23-41 | after any run of events the list is the last one received and the selection the last `result.id` received (or their earlier values), whatever buttons were clicked |
| AnimationButtonList.SelectionIsTheReply | React-App/led-strip/src/js/components/AnimationButtonList.js:34-41 | a click on button i answered with id a selects a, even when a differs from the clicked animation's id |
| EffectPicker.Initial | React-App/led-strip/src/js/components/EffectPicker.js:22-28 | the primary colour starts as (0, 0, 0) with no selected colour |
| EffectPicker.HandlePrimaryColorChange | React-App/led-strip/src/js/components/EffectPicker.js:32-37 | splitting the request on `&` and `=` recovers r, g, b exactly; the keys are `r`, `g`, `b` in that order, so there is no alpha or `type` key |
| EffectPicker.AdoptEffectReply | React-App/led-strip/src/js/components/EffectPicker.js:37-43 | on success `selectedColor` becomes the picked colour; `primaryColor` never changes; a failure changes nothing |
| EffectPicker.RunChangesEffect | React-App/led-strip/src/js/components/EffectPicker.js:37-52 | over any run of changes, `primaryColor` (the value fed to the picker) is never updated and `selectedColor` is the last acknowledged colour |
| EffectPicker.EffectRequestForwarded | React-App/led-strip/webpack.config.js:62-66 | the effect request passes the development proxy |
| Text.ParseIntToString | React-App/led-strip/src/js/components/AnimationButtonList.js:35 | the decimal rendering of an integer reads back to the same integer |
| Text.SplitJoin | React-App/led-strip/src/js/components/EffectPicker.js:37 | splitting a join on a separator absent from the pieces recovers the pieces |
| Text.JoinSplit | React-App/led-strip/src/js/components/EffectPicker.js:37 | joining the pieces of a split recovers the string |
| Animations.AnimationTable | LEDStripDriver/animations.h:18-36 | the table has animationCount + 1 = 5 slots; slot i < 4 has id i + 1 with a name and a handler; the last slot is the sentinel |
| Animations.Lookup | LEDStripDriver/animations.h:29-36 | a scan stopping at the sentinel returns a registered entry with the requested id, or none when no registered entry has it |
| Animations.FindAnimation | LEDStripDriver/animations.h:29-36 | the loop scan returns the first registered slot with the id, or none when no registered slot has it; it agrees with `Lookup` in both cases |
| Animations.LookupFirst | LEDStripDriver/animations.h:29-36 | the table lookup returns the first registered entry with the id, the one the loop scan stops at |
| Animations.EveryRegisteredIdFoundOnce | LEDStripDriver/animations.h:31-35 | ids 1 to 4 each occur once among the registered entries and are found at slot id - 1; every other id, 0 included, is not found |
| Animations.UnlistedHandlersUnreachable | LEDStripDriver/animations.h:31-35 | no id reaches christmasRGDance, halloweenOrange, melloYello or yuleLog |
| Pixels.PaintedWitness | LEDStripDriver/animationFunctionHelpers.h:30 | a pixel has a last-written colour exactly when some write targets it, and that colour was written there |
| Pixels.Apply | LEDStripDriver/animationFunctionHelpers.h:30 | on a strip of fixed length every in-range pixel shows its last write; unwritten pixels keep their colour |
| Pixels.Dropped | LEDStripDriver/animationFunctionHelpers.h:30 | lists only writes outside the strip, no more than the log holds; empty exactly when every write is in range |
| Pixels.DroppedMembers | LEDStripDriver/animationFunctionHelpers.h:30 | the dropped writes are exactly the log's writes outside the strip: none invented, none missed |
| Pixels.PaintedSweep | LEDStripDriver/animationFunctionHelpers.h:44-46 | in an ascending one-pass loop every pixel ends with the colour of its own write |
| Pixels.PaintedAt | LEDStripDriver/animationFunctionHelpers.h:30 | a write that no later write overrides decides its pixel's colour |
| Pixels.PaintedConcat | LEDStripDriver/animationFunctions.h:133-140 | a later loop overrides an earlier one pixel by pixel |
| Pixels.DroppedFill | LEDStripDriver/animationFunctionHelpers.h:44-46 | a fill from inside the strip overruns by exactly its writes at and beyond the strip length |
| AnimationHelpers.Named | LEDStripDriver/animationFunctionHelpers.h:19-27 | every channel of every named colour is at most SATURATION; white is all SATURATION and black all 0 |
| AnimationHelpers.NamedDistinct | LEDStripDriver/animationFunctionHelpers.h:19-27 | with SATURATION of at least 2 the nine named colours are pairwise different |
| AnimationHelpers.SetAllPixels | LEDStripDriver/animationFunctionHelpers.h:43-49 | writes every index from START_LED through LED_COUNT once, in ascending order, in the given colour |
| AnimationHelpers.SetAllPixelsOnStrip | LEDStripDriver/animationFunctionHelpers.h:43-49 | setAllPixels colours every pixel from START_LED on and none below it; its one write outside the strip is index LED_COUNT |
| AnimationHelpers.BlendAnimUpdate | LEDStripDriver/animationFunctionHelpers.h:94-109 | writes every index from START_LED through LED_COUNT - 1 once, in ascending order, in the blended colour |
| AnimationHelpers.BlendAnimUpdateInStrip | LEDStripDriver/animationFunctionHelpers.h:94-109 | the blend fill stops before LED_COUNT: one write fewer than setAllPixels and none outside the strip |
| AnimationHelpers.BlendAnimUpdateVersusSetAll | LEDStripDriver/animationFunctionHelpers.h:94-109 | on the strip the blend fill leaves START_LED..LED_COUNT-1 in the colour and lower pixels untouched, pixel for pixel what setAllPixels leaves |
| AnimationHelpers.FadeInFadeOutRinseRepeat | LEDStripDriver/animationFunctionHelpers.h:114-143 | each call flips fadeToColor and starts grey (175,175,175) towards red (140,0,0) or blue (0,0,175) by the flag |
| AnimationHelpers.FadeCallsAlternate | LEDStripDriver/animationFunctionHelpers.h:114-143 | successive calls alternate: from the initial flag, even calls fade to red and odd calls to blue |
| AnimationFunctions.ChristmasPassShape | LEDStripDriver/animationFunctions.h:57-75 | the pixel loop writes each index from START_LED to LED_COUNT once, odd ones RgbColor(20), even ones by their rank among even pixels |
| AnimationFunctions.ChristmasFrameColors | LEDStripDriver/animationFunctions.h:57-75 | in a frame every odd index in [START_LED, LED_COUNT] ends dim white and every even one gets its rank's colour |
| AnimationFunctions.ChristmasFirstEvenPixel | LEDStripDriver/animationFunctions.h:58-71 | the first even pixel is red when swapRG is unset and green when it is set |
| AnimationFunctions.ChristmasEvenPixelsAlternate | LEDStripDriver/animationFunctions.h:58-71 | consecutive even pixels alternate red and green |
| AnimationFunctions.ChristmasPeriodTwo | LEDStripDriver/animationFunctions.h:79-80 | swapRG flips every frame, so each even pixel changes colour between frames and the frames repeat with period 2 |
| AnimationFunctions.ChristmasOverrun | LEDStripDriver/animationFunctions.h:57 | the frame's only write outside the strip is its last one, to index LED_COUNT |
| AnimationFunctions.ChristmasPass | LEDStripDriver/animationFunctions.h:56-74 | the pixel loop from pixelIndex makes one write per index up to LED_COUNT inclusive (order and colours in ChristmasPassShape) |
| AnimationFunctions.ChristmasRGDanceStep | LEDStripDriver/animationFunctions.h:55-83 | one pass of the main loop makes one write per index from START_LED through LED_COUNT and flips swapRG |
| AnimationFunctions.Median | LEDStripDriver/animationFunctions.h:97 | the median lies in [START_LED, LED_COUNT) |
| AnimationFunctions.CopHalvesPainted | LEDStripDriver/animationFunctions.h:133-140 | START_LED to median - 1 get the first colour, median to LED_COUNT the second (the second loop overwrites the median), nothing else is written |
| AnimationFunctions.CopColorsAlternate | LEDStripDriver/animationFunctions.h:94-128 | the (first, second) pair swaps between (red, blue) and (blue, red) every iteration |
| AnimationFunctions.CopFlashOverrun | LEDStripDriver/animationFunctions.h:129 | the white flash writes index LED_COUNT, its only out-of-strip write |
| AnimationFunctions.CopHalvesOverrun | LEDStripDriver/animationFunctions.h:132-140 | the second half writes index LED_COUNT, the only out-of-strip write of the halves |
| AnimationFunctions.CopLightsAlternatingStep | LEDStripDriver/animationFunctions.h:115-144 | each iteration flips `swapped` (the flash and halves it writes are described by CopFlashPainted, CopHalvesPainted, CopFlashOverrun and CopHalvesOverrun) |
| AnimationFunctions.CopFlashPainted | LEDStripDriver/animationFunctions.h:129 | the white flash colours every pixel from START_LED through LED_COUNT white and no other pixel |
| AnimationFunctions.Constrain | LEDStripDriver/animationFunctions.h:204-205 | `constrain` yields the lower bound below the range, the upper bound above it, and in-range values unchanged |
| AnimationFunctions.LineOutBounds | LEDStripDriver/animationFunctions.h:184-215 | the erased line ends lie in [START_LED, median - 18] and [START_LED, LED_COUNT], the latter reaching one past the strip (see LineOutOverrun); pixelIndex stays in [START_LED, median] and restarts after reaching the median |
| AnimationFunctions.LineOutOverrun | LEDStripDriver/animationFunctions.h:195-211 | outside a reset the only dropped write is the erasure of bLineEnd at LED_COUNT, exactly while pixelIndex <= 18; a reset drops exactly the setAllPixels write at LED_COUNT, followed by the bLineEnd erasure at LED_COUNT when START_LED <= 18 |
| AnimationFunctions.LineOutLinesInStrip | LEDStripDriver/animationFunctions.h:190-196 | when the lines fit between START_LED and the median, all 36 white writes (median - j and median + j for j < 18) land inside the strip |
| AnimationFunctions.LineOutResetDropped | LEDStripDriver/animationFunctions.h:188-200 | the only write of a reset outside the strip is the setAllPixels write at LED_COUNT |
| AnimationFunctions.LineOutMarksDropped | LEDStripDriver/animationFunctions.h:203-211 | of an iteration's four marks only the bLineEnd erasure can leave the strip, and it does exactly while pixelIndex <= 18 |
| AnimationFunctions.CopLightsLineOutStep | LEDStripDriver/animationFunctions.h:184-215 | the index restarts at START_LED once it reaches the median, and only then do extra writes (the reset) come first; the last four writes are red at the index, blue at its mirror LED_COUNT - index, the two line ends erased black, and the index advanced by one |
| AnimationFunctions.HalloweenBrightnessSweep | LEDStripDriver/animationFunctions.h:238 | the brightness loop visits 74, 70, ..., 2: nineteen values |
| AnimationFunctions.HalloweenBlock | LEDStripDriver/animationFunctions.h:239-256 | one block makes 26 writes to the 25 pixels count..count + 24: the first line (count..count + 12) in the brightness shade, the second (count + 12..count + 24, sharing pixel count + 12) in the 74 - brightness shade, the two exchanged when swap is set |
| AnimationFunctions.BrightnessLevelsValues | LEDStripDriver/animationFunctions.h:238 | a loop stepping down by 4 from b visits b - 4k for k up to b / 4 |
| AnimationFunctions.HalloweenBlocks | LEDStripDriver/animationFunctions.h:239-257 | every colour written has red in [0, 74], green red / 4 and blue 0; some write lies past LED_COUNT |
| AnimationFunctions.HalloweenOrangeFrame | LEDStripDriver/animationFunctions.h:238-256 | every write of a frame is an orange shade at an index from START_LED on |
| AnimationFunctions.HalloweenOverrun | LEDStripDriver/animationFunctions.h:249-256 | every frame writes outside the strip |
| AnimationFunctions.MelloYelloStep | LEDStripDriver/animationFunctions.h:391-421 | the head moves one pixel in the direction chosen for this iteration |
| AnimationFunctions.MelloFramePainted | LEDStripDriver/animationFunctions.h:397-419 | a frame leaves green at trailEnd, the fading yellow TrailColor(25 - k) on the k-th trail pixel, and never black at the head, whose blanking write the trail always overrides; every write lies between the head and trailEnd |
| AnimationFunctions.MelloOverrun | LEDStripDriver/animationFunctions.h:397-419 | a frame writes outside the strip exactly when the head or trailEnd is at LED_COUNT |
| AnimationFunctions.MelloStepKeepsInvariant | LEDStripDriver/animationFunctions.h:392-395 | count stays in [START_LED, LED_COUNT]: the direction reverses at LED_COUNT and turns forward again at START_LED |
| AnimationFunctions.MelloRunKeepsInvariant | LEDStripDriver/animationFunctions.h:379-425 | from any state in range, every later state is in range |
| AnimationFunctions.TrailEnd | LEDStripDriver/animationFunctions.h:401-412 | the trail end is clamped to [START_LED, LED_COUNT] |
| AnimationFunctions.TrailDown | LEDStripDriver/animationFunctions.h:403-406 | the downward trail writes count, count - 1, ... with brightness 25, 24, ... |
| AnimationFunctions.TrailUp | LEDStripDriver/animationFunctions.h:414-417 | the upward trail writes count, count + 1, ... with brightness 25, 24, ... |
| AnimationFunctions.MelloTrail | LEDStripDriver/animationFunctions.h:399-418 | the trail runs from the head to trailEnd, away from the direction of travel, one pixel per step, with brightness 25 at the head falling by one per pixel |
| AnimationFunctions.FirmwareConfigs | LEDStripDriver/config.h:25-27 | both the main firmware's constants (246, 1, 128) and the Christmas firmware's (56, 1, 128) are valid, with medians 123 and 28, line-out lines fitting below the median, Mello yello starting in range, and saturation at least 2, as NamedDistinct and the Christmas colour lemmas assume |
| AnimationFunctions.MelloTrailBounds | LEDStripDriver/animationFunctions.h:400-418 | in range, the trail paints 1 to 26 pixels from brightness 25, never below 0, so the uint8_t conversion never wraps |

## Left out

- Rendering (JSX, Material-UI styling, drawer and breakpoint CSS): presentation only.
- `fetch`, promises and JSON parsing: each request is the URL string a transition returns, and each reply is a success-or-failure input to the handler.
- List and select bodies without `animations` or `result.id`: the source would store `undefined`, and the list render would then throw. The model's reply carries a list and an integer id.
- `contentMap` lookups of keys inherited from the JavaScript object prototype: the registry is a finite map.
- EffectPicker.AdoptEffectReply: models the handler as if bound to the component. In the source, `handlePrimaryColorChange` is passed unbound at EffectPicker.js:52, so `this.setState` would fail.
- The undeclared `container` in MenuContent.js:236: a JavaScript reference error, not control logic.
- Unmounting and the interleaving of in-flight replies: every reply is applied atomically, in the order the events are given.
- App.js, MainAppBar.js, WhiteTextTypography.js, DeveloperPage.js (one fire-and-forget reset request), and webpack.config.js beyond its proxy rule: presentation or configuration with no control logic.
- espnow.h (a bare struct), and the config.h files beyond their strip constants.
- FreeRTOS structure (`vTaskDelay`, `delay`, the endless loops, `strip.Show()`) and every start-up animation: the model covers a single main-loop iteration.
- rainyDay, yuleLog, copLightsMix, `SetRandomSeed` and the `random(400, 500)` durations: they are driven by randomness. `FadeInFadeOutRinseRepeat` keeps only its flag logic and blend endpoints.
- Floating-point maths (`RgbColor::LinearBlend`, yuleLog brightness, the unused luminance argument): the blended colour is a parameter of `BlendAnimUpdate`.
- NeoPixelBus internals: `Apply` assumes the library ignores a write outside the strip. `Dropped` makes every such write explicit.
- The firmware sketch that searches the animation table is not part of this model. `Lookup` and `FindAnimation` model a scan that stops at the sentinel.
- AnimationFunctions.HalloweenOrangeFrame: states the shade and index bounds of every write, not which pixel ends with which shade after the overlapping lines.
- AnimationFunctions.CopLightsLineOutStep: states the index progression, its four final writes and the bounds of its line ends (in `LineOutBounds`), not the pixel picture the reset's white lines and dark strip leave.
- Text.IntToString: renders every integer in plain decimal; JavaScript's `String` switches to exponent form from 10^21 and is exact only below 2^53, magnitudes that animation ids and colour channels (0 to 255) are assumed never to reach.

=== FILE: animation_button_list.dfy ===
/** The animation panel: the list of animations the device reports, the id
    the device last confirmed as playing, and one button per animation. */
module AnimationButtonList {
  import opened Optional
  import opened Text
  import DevProxy

  datatype Animation = Animation(id: int, name: string)

  datatype PanelState = PanelState(animations: seq<Animation>, selectedAnimationId: Option<int>)

  const ListPath: string := "/animations/get"
  const SelectPrefix: string := "/animations/select?id="

  function Initial(): (s: PanelState)
    ensures s.animations == [] && s.selectedAnimationId.None?
  {
    PanelState([], None)
  }

  /** What the list request delivers: `ListFailed` for a failed request or
      body, otherwise the body's `animations` array. */
  datatype ListReply = ListFailed | ListReceived(animations: seq<Animation>)

  /** A list reply replaces the whole list and leaves the selection alone. */
  function AdoptList(s: PanelState, reply: ListReply): (t: PanelState)
    ensures reply.ListReceived? ==> t.animations == reply.animations
    ensures reply.ListFailed? ==> t == s
    ensures t.selectedAnimationId == s.selectedAnimationId
  {
    match reply
    case ListReceived(list) => s.(animations := list)
    case ListFailed => s
  }

  /** The id carried by a select URL, or `None` for any other string. */
  function ParseSelectUrl(url: string): Option<int> {
    if SelectPrefix <= url then ParseInt(url[|SelectPrefix|..]) else None
  }

  /** The select request: the fixed prefix followed by the id's decimal
      rendering, from which the id can be read back. */
  function SelectUrl(id: int): (url: string)
    ensures SelectPrefix <= url && |url| > |SelectPrefix|
    ensures ParseSelectUrl(url) == Some(id)
  {
    var url := SelectPrefix + IntToString(id);
    assert url[|SelectPrefix|..] == IntToString(id);
    ParseIntToString(id);
    url
  }

  /** What the select request delivers: `SelectFailed` for a failed request
      or a body without `result`, otherwise the body's `result.id`. */
  datatype SelectReply = SelectFailed | SelectReceived(resultId: int)

  /** The selection becomes the id the device reports, which need not be
      the id that was requested; the list is untouched. */
  function AdoptSelection(s: PanelState, reply: SelectReply): (t: PanelState)
    ensures reply.SelectReceived? ==> t.selectedAnimationId == Some(reply.resultId)
    ensures reply.SelectFailed? ==> t == s
    ensures t.animations == s.animations
  {
    match reply
    case SelectReceived(id) => s.(selectedAnimationId := Some(id))
    case SelectFailed => s
  }

  /** A rendered button: its caption and the request its click sends. */
  datatype Button = Button(caption: string, request: string)

  /** One button per animation, in list order. */
  function Buttons(s: PanelState): (buttons: seq<Button>)
    ensures |buttons| == |s.animations|
    ensures forall i :: 0 <= i < |buttons| ==> buttons[i].caption == s.animations[i].name
  {
    seq(|s.animations|, i requires 0 <= i < |s.animations| =>
      Button(s.animations[i].name, SelectUrl(s.animations[i].id)))
  }

  /** Clicking the i-th button asks the device for the i-th animation's id. */
  lemma ButtonSelectsItsAnimation(s: PanelState, i: int)
    requires 0 <= i < |s.animations|
    ensures ParseSelectUrl(Buttons(s)[i].request) == Some(s.animations[i].id)
  {
  }

  /** Different ids give different select requests. */
  lemma SelectUrlInjective(a: int, b: int)
    requires a != b
    ensures SelectUrl(a) != SelectUrl(b)
  {
  }

  /** Neither animation request begins with `/api`, so the development proxy
      does not pass them on to the device. */
  lemma AnimationRequestsNotForwarded(id: int)
    ensures !DevProxy.Forwarded(ListPath)
    ensures !DevProxy.Forwarded(SelectUrl(id))
  {
    assert ListPath[2] == 'n' && DevProxy.ProxyPrefix[2] == 'p';
    var url := SelectUrl(id);
    assert url[2] == 'n';
  }

  /** Everything that can happen to a mounted panel: its mounting, a click
      on the button at `index`, and the replies to its two requests. */
  datatype PanelEvent =
    | Mounted
    | ButtonClicked(index: int)
    | ListArrived(listReply: ListReply)
    | SelectArrived(selectReply: SelectReply)

  /** The state after an event and the request the event sends, if any. */
  datatype PanelTransition = PanelTransition(next: PanelState, request: Option<string>)

  /** Mounting asks for the list and a click asks for the clicked
      animation; neither changes the state, which only the replies do. A
      click on an index with no button is no event of the rendered panel
      and does nothing. */
  function Step(s: PanelState, e: PanelEvent): (t: PanelTransition)
    ensures e.Mounted? ==> t == PanelTransition(s, Some(ListPath))
    ensures e.ButtonClicked? && 0 <= e.index < |s.animations| ==>
              t.next == s && t.request == Some(SelectUrl(s.animations[e.index].id))
    ensures e.ButtonClicked? && !(0 <= e.index < |s.animations|) ==> t == PanelTransition(s, None)
    ensures e.ListArrived? ==> t == PanelTransition(AdoptList(s, e.listReply), None)
    ensures e.SelectArrived? ==> t == PanelTransition(AdoptSelection(s, e.selectReply), None)
    ensures t.request.Some? ==> t.next == s
  {
    match e
    case Mounted => PanelTransition(s, Some(ListPath))
    case ButtonClicked(i) =>
      if 0 <= i < |s.animations| then PanelTransition(s, Some(Buttons(s)[i].request))
      else PanelTransition(s, None)
    case ListArrived(reply) => PanelTransition(AdoptList(s, reply), None)
    case SelectArrived(reply) => PanelTransition(AdoptSelection(s, reply), None)
  }

  /** The state after a sequence of events, applied in order. */
  function Run(s: PanelState, events: seq<PanelEvent>): PanelState
    decreases |events|
  {
    if |events| == 0 then s else Step(Run(s, events[..|events| - 1]), events[|events| - 1]).next
  }

  /** The animations of the latest list that arrived, if any did. */
  function LastList(events: seq<PanelEvent>): Option<seq<Animation>>
    decreases |events|
  {
    if |events| == 0 then None
    else
      var e := events[|events| - 1];
      if e.ListArrived? && e.listReply.ListReceived? then Some(e.listReply.animations)
      else LastList(events[..|events| - 1])
  }

  /** The `result.id` of the latest selection reply that arrived, if any
      did. */
  function LastSelection(events: seq<PanelEvent>): Option<int>
    decreases |events|
  {
    if |events| == 0 then None
    else
      var e := events[|events| - 1];
      if e.SelectArrived? && e.selectReply.SelectReceived? then Some(e.selectReply.resultId)
      else LastSelection(events[..|events| - 1])
  }

  /** After any run, the list is the latest one the device sent and the
      selection the latest id it confirmed (or their earlier values if
      none arrived), whatever buttons were clicked in between: the panel
      shows what the device reports, not what was requested. */
  lemma {:induction false} RunFollowsReplies(s: PanelState, events: seq<PanelEvent>)
    ensures Run(s, events).animations == if LastList(events).Some? then LastList(events).value else s.animations
    ensures Run(s, events).selectedAnimationId ==
            if LastSelection(events).Some? then LastSelection(events) else s.selectedAnimationId
    decreases |events|
  {
    if |events| > 0 {
      RunFollowsReplies(s, events[..|events| - 1]);
    }
  }

  /** A click followed by the device's answer selects the answered id, even
      when it differs from the clicked animation's. */
  lemma SelectionIsTheReply(s: PanelState, i: int, answered: int)
    requires 0 <= i < |s.animations|
    ensures var events := [ButtonClicked(i), SelectArrived(SelectReceived(answered))];
            Run(s, events).selectedAnimationId == Some(answered) &&
            Run(s, events).animations == s.animations
  {
    var events := [ButtonClicked(i), SelectArrived(SelectReceived(answered))];
    RunFollowsReplies(s, events);
    assert events[..1] == [ButtonClicked(i)];
    assert events[..1][..0] == [];
    assert LastList(events) == LastList(events[..1]) == None;
  }
}

=== FILE: animation_functions.dfy ===
/** One frame (one pass of the main loop) of each deterministic animation.
    Each frame is a function of the animation's loop state and returns its
    write log together with the next loop state. Start-up sequences, delays
    and `Show` calls are not part of a frame. */
module AnimationFunctions {
  import opened Optional
  import opened Pixels
  import opened AnimationHelpers

  /*  christmasRGDance  */

  /** The colour of the odd pixels. */
  const DimWhite: RgbColor := Gray(20)

  /** The colour of the even pixel whose rank among the even pixels of the
      pass is `evenIndex`. */
  function ChristmasEvenColor(cfg: StripConfig, evenIndex: int, swapRG: bool): RgbColor {
    if evenIndex % 2 == 0 then
      (if swapRG then Named(Green, cfg.saturation) else Named(Red, cfg.saturation))
    else
      (if swapRG then Named(Red, cfg.saturation) else Named(Green, cfg.saturation))
  }

  /** The pixel loop of one pass, from `pixelIndex` on, with the running
      count `evenIndex` of even pixels already written. */
  function ChristmasPass(cfg: StripConfig, pixelIndex: nat, evenIndex: int, swapRG: bool): (w: seq<Write>)
    ensures |w| == if pixelIndex > cfg.ledCount then 0 else cfg.ledCount + 1 - pixelIndex
    decreases cfg.ledCount + 1 - pixelIndex
  {
    if pixelIndex > cfg.ledCount then []
    else if pixelIndex % 2 == 0 then
      [Write(pixelIndex, ChristmasEvenColor(cfg, evenIndex, swapRG))]
        + ChristmasPass(cfg, pixelIndex + 1, evenIndex + 1, swapRG)
    else
      [Write(pixelIndex, DimWhite)] + ChristmasPass(cfg, pixelIndex + 1, evenIndex, swapRG)
  }

  /** The number of even integers in `[lo, i)`. */
  function EvensBefore(lo: nat, i: nat): int {
    (i + 1) / 2 - (lo + 1) / 2
  }

  datatype ChristmasFrame = ChristmasFrame(writes: seq<Write>, swapRG: bool)

  /** One pass of the main loop: the even counter restarts at 0, and
      `swapRG` flips afterwards. */
  function ChristmasRGDanceStep(cfg: StripConfig, swapRG: bool): (f: ChristmasFrame)
    ensures f.swapRG == !swapRG
    ensures cfg.startLed <= cfg.ledCount ==> |f.writes| == cfg.ledCount + 1 - cfg.startLed
  {
    ChristmasFrame(ChristmasPass(cfg, cfg.startLed, 0, swapRG), !swapRG)
  }

  /** The colour pixel `j` gets in a pass begun at `lo` with even count `e`. */
  function ChristmasPixel(cfg: StripConfig, lo: nat, e: int, swapRG: bool, j: nat): RgbColor {
    if j % 2 == 0 then ChristmasEvenColor(cfg, e + EvensBefore(lo, j), swapRG) else DimWhite
  }

  /** Starting one pixel later, with the count updated for the skipped
      pixel, gives the same colours. */
  lemma ChristmasPixelShift(cfg: StripConfig, lo: nat, e: int, swapRG: bool, j: nat)
    requires lo < j
    ensures ChristmasPixel(cfg, lo + 1, if lo % 2 == 0 then e + 1 else e, swapRG, j) == ChristmasPixel(cfg, lo, e, swapRG, j)
  {
    assert (lo + 2) / 2 - (lo + 1) / 2 == if lo % 2 == 0 then 1 else 0;
  }

  /** One iteration of the pixel loop: the first write, then the rest of
      the pass with the even count updated. */
  lemma ChristmasPassUnfold(cfg: StripConfig, i: nat, e: int, swapRG: bool)
    requires i <= cfg.ledCount
    ensures var w := ChristmasPass(cfg, i, e, swapRG);
            |w| >= 1 && w[0] == Write(i, ChristmasPixel(cfg, i, e, swapRG, i)) &&
            w[1..] == ChristmasPass(cfg, i + 1, if i % 2 == 0 then e + 1 else e, swapRG)
  {
  }

  /** The pass writes every pixel from `pixelIndex` to `LED_COUNT` once, in
      order. */
  lemma {:induction false} ChristmasPassIndices(cfg: StripConfig, i: nat, e: int, swapRG: bool)
    requires i <= cfg.ledCount + 1
    ensures var w := ChristmasPass(cfg, i, e, swapRG);
            |w| == cfg.ledCount + 1 - i && Sweep(w, i)
    decreases cfg.ledCount + 1 - i
  {
    if i <= cfg.ledCount {
      ChristmasPassUnfold(cfg, i, e, swapRG);
      ChristmasPassIndices(cfg, i + 1, if i % 2 == 0 then e + 1 else e, swapRG);
    }
  }

  /** Odd pixels are written dim white, and each even pixel the colour for
      its rank among the even pixels. */
  lemma {:induction false} ChristmasPassColorAt(cfg: StripConfig, i: nat, e: int, swapRG: bool, k: nat)
    requires i + k <= cfg.ledCount
    ensures ChristmasPass(cfg, i, e, swapRG)[k].color == ChristmasPixel(cfg, i, e, swapRG, i + k)
    decreases k
  {
    ChristmasPassUnfold(cfg, i, e, swapRG);
    if k > 0 {
      var e' := if i % 2 == 0 then e + 1 else e;
      ChristmasPassColorAt(cfg, i + 1, e', swapRG, k - 1);
      ChristmasPixelShift(cfg, i, e, swapRG, i + k);
    }
  }

  /** The whole pass: each pixel from `pixelIndex` to `LED_COUNT` written
      once, in order, with its colour. */
  lemma ChristmasPassShape(cfg: StripConfig, i: nat, e: int, swapRG: bool)
    requires i <= cfg.ledCount + 1
    ensures var w := ChristmasPass(cfg, i, e, swapRG);
            |w| == cfg.ledCount + 1 - i && Sweep(w, i) &&
            forall k :: 0 <= k < |w| ==> w[k].color == ChristmasPixel(cfg, i, e, swapRG, i + k)
  {
    ChristmasPassIndices(cfg, i, e, swapRG);
    forall k | 0 <= k < cfg.ledCount + 1 - i {
      ChristmasPassColorAt(cfg, i, e, swapRG, k);
    }
  }

  /** In a pass begun at `lo`, the last write to each pixel it covers is
      that pixel's colour. */
  lemma ChristmasPassPainted(cfg: StripConfig, lo: nat, swapRG: bool, p: nat)
    requires lo <= p <= cfg.ledCount
    ensures Painted(ChristmasPass(cfg, lo, 0, swapRG), p) == Some(ChristmasPixel(cfg, lo, 0, swapRG, p))
  {
    var w := ChristmasPass(cfg, lo, 0, swapRG);
    ChristmasPassShape(cfg, lo, 0, swapRG);
    PaintedSweep(w, lo, p);
    assert w[p - lo].color == ChristmasPixel(cfg, lo, 0, swapRG, lo + (p - lo));
  }

  /** In a frame every odd pixel from `START_LED` to `LED_COUNT` is dim
      white, and every even one has the colour for its rank among the even
      pixels. */
  lemma ChristmasFrameColors(cfg: StripConfig, swapRG: bool, p: int)
    requires Valid(cfg) && cfg.startLed <= p <= cfg.ledCount
    ensures Painted(ChristmasRGDanceStep(cfg, swapRG).writes, p) ==
            Some(if p % 2 == 1 then DimWhite else ChristmasEvenColor(cfg, EvensBefore(cfg.startLed, p), swapRG))
  {
    ChristmasPassPainted(cfg, cfg.startLed, swapRG, p);
  }

  lemma ChristmasEvenColorAlternates(cfg: StripConfig, e: int, swapRG: bool)
    requires cfg.saturation > 0
    ensures ChristmasEvenColor(cfg, e, swapRG) == Named(Red, cfg.saturation) <==>
            ChristmasEvenColor(cfg, e + 1, swapRG) == Named(Green, cfg.saturation)
    ensures ChristmasEvenColor(cfg, e, swapRG) == Named(Red, cfg.saturation) <==>
            ChristmasEvenColor(cfg, e, !swapRG) == Named(Green, cfg.saturation)
  {
    assert (e + 1) % 2 == 0 <==> e % 2 != 0;
  }

  /** The first even pixel of a frame is red exactly when `swapRG` is
      unset. */
  lemma ChristmasFirstEvenPixel(cfg: StripConfig, swapRG: bool, p: int)
    requires Valid(cfg) && cfg.startLed <= p <= cfg.ledCount && p % 2 == 0
    requires EvensBefore(cfg.startLed, p) == 0
    ensures Painted(ChristmasRGDanceStep(cfg, swapRG).writes, p) ==
            Some(if swapRG then Named(Green, cfg.saturation) else Named(Red, cfg.saturation))
  {
    ChristmasFrameColors(cfg, swapRG, p);
  }

  /** Even pixels alternate red and green in order of appearance. */
  lemma ChristmasEvenPixelsAlternate(cfg: StripConfig, swapRG: bool, p: int)
    requires Valid(cfg) && cfg.saturation > 0
    requires cfg.startLed <= p && p + 2 <= cfg.ledCount && p % 2 == 0
    ensures var w := ChristmasRGDanceStep(cfg, swapRG).writes;
            Painted(w, p) == Some(Named(Red, cfg.saturation)) <==>
            Painted(w, p + 2) == Some(Named(Green, cfg.saturation))
  {
    var e := EvensBefore(cfg.startLed, p);
    assert EvensBefore(cfg.startLed, p + 2) == e + 1;
    ChristmasFrameColors(cfg, swapRG, p);
    ChristmasFrameColors(cfg, swapRG, p + 2);
    ChristmasEvenColorAlternates(cfg, e, swapRG);
  }

  /** `swapRG` alternates, so the frame sequence has period 2, and from one
      frame to the next every even pixel trades red for green. */
  lemma ChristmasPeriodTwo(cfg: StripConfig, swapRG: bool, p: int)
    requires Valid(cfg) && cfg.startLed <= p <= cfg.ledCount && p % 2 == 0 && cfg.saturation > 0
    ensures ChristmasRGDanceStep(cfg, ChristmasRGDanceStep(cfg, swapRG).swapRG).swapRG == swapRG
    ensures var now := ChristmasRGDanceStep(cfg, swapRG);
            var next := ChristmasRGDanceStep(cfg, now.swapRG);
            Painted(now.writes, p) == Some(Named(Red, cfg.saturation)) <==>
            Painted(next.writes, p) == Some(Named(Green, cfg.saturation))
  {
    ChristmasFrameColors(cfg, swapRG, p);
    ChristmasFrameColors(cfg, !swapRG, p);
    ChristmasEvenColorAlternates(cfg, EvensBefore(cfg.startLed, p), swapRG);
  }

  /** The pass's last write, to index `LED_COUNT`, is the only one outside
      the strip. */
  lemma ChristmasOverrun(cfg: StripConfig, swapRG: bool)
    requires Valid(cfg)
    ensures var w := ChristmasRGDanceStep(cfg, swapRG).writes;
            |Dropped(w, cfg.ledCount)| == 1 && Dropped(w, cfg.ledCount)[0].index == cfg.ledCount
  {
    var w := ChristmasPass(cfg, cfg.startLed, 0, swapRG);
    ChristmasPassShape(cfg, cfg.startLed, 0, swapRG);
    DroppedSweep(w, cfg.startLed, cfg.ledCount);
  }

  /*  copLightsAlternating  */

  /** `(LED_COUNT + START_LED) / 2`, the middle pixel both halves share. */
  function Median(cfg: StripConfig): (m: int)
    requires Valid(cfg)
    ensures cfg.startLed <= m < cfg.ledCount
  {
    (cfg.ledCount + cfg.startLed) / 2
  }

  datatype CopColors = CopColors(first: RgbColor, second: RgbColor)

  /** The pair of half colours for the current `swapped` flag. */
  function CopColorsFor(cfg: StripConfig, swapped: bool): (c: CopColors)
    ensures swapped ==> c == CopColors(Named(Red, cfg.saturation), Named(Blue, cfg.saturation))
    ensures !swapped ==> c == CopColors(Named(Blue, cfg.saturation), Named(Red, cfg.saturation))
  {
    if swapped then CopColors(Named(Red, cfg.saturation), Named(Blue, cfg.saturation))
    else CopColors(Named(Blue, cfg.saturation), Named(Red, cfg.saturation))
  }

  /** One iteration: a white flash (shown by `setAllPixels`), then the two
      halves, and the flipped flag. */
  datatype CopAlternatingFrame = CopAlternatingFrame(flash: seq<Write>, halves: seq<Write>, swapped: bool)

  function CopLightsAlternatingStep(cfg: StripConfig, swapped: bool): (f: CopAlternatingFrame)
    requires Valid(cfg)
    ensures f.swapped == !swapped
  {
    var colors := CopColorsFor(cfg, swapped);
    var median := Median(cfg);
    CopAlternatingFrame(
      SetAllPixels(cfg, Named(White, cfg.saturation)),
      Fill(cfg.startLed, median, colors.first) + Fill(median, cfg.ledCount, colors.second),
      !swapped)
  }

  /** The halves: `START_LED` up to the median (exclusive) take the first
      colour, the median through `LED_COUNT` the second (the second loop
      overwrites the median), and nothing else is written. */
  lemma CopHalvesPainted(cfg: StripConfig, swapped: bool, i: int)
    requires Valid(cfg)
    ensures var colors := CopColorsFor(cfg, swapped);
            var median := Median(cfg);
            Painted(CopLightsAlternatingStep(cfg, swapped).halves, i) ==
              if cfg.startLed <= i < median then Some(colors.first)
              else if median <= i <= cfg.ledCount then Some(colors.second)
              else None
  {
    var colors := CopColorsFor(cfg, swapped);
    var median := Median(cfg);
    var a := Fill(cfg.startLed, median, colors.first);
    var b := Fill(median, cfg.ledCount, colors.second);
    PaintedConcat(a, b, i);
    PaintedSweep(a, cfg.startLed, i);
    PaintedSweep(b, median, i);
  }

  /** The colour pair swaps every iteration and returns after two. */
  lemma CopColorsAlternate(cfg: StripConfig, swapped: bool)
    requires Valid(cfg)
    ensures var next := CopLightsAlternatingStep(cfg, swapped).swapped;
            CopColorsFor(cfg, next) == CopColorsFor(cfg, swapped).(first := CopColorsFor(cfg, swapped).second,
                                                                     second := CopColorsFor(cfg, swapped).first)
    ensures CopLightsAlternatingStep(cfg, CopLightsAlternatingStep(cfg, swapped).swapped).swapped == swapped
  {
  }

  /** The white flash colours `START_LED` through `LED_COUNT` white and
      touches nothing else. */
  lemma CopFlashPainted(cfg: StripConfig, swapped: bool, i: int)
    requires Valid(cfg)
    ensures Painted(CopLightsAlternatingStep(cfg, swapped).flash, i) ==
              if cfg.startLed <= i <= cfg.ledCount then Some(Named(White, cfg.saturation)) else None
  {
    PaintedSweep(SetAllPixels(cfg, Named(White, cfg.saturation)), cfg.startLed, i);
  }

  /** The white flash writes index `LED_COUNT`, one past the strip, and
      nothing else outside it. */
  lemma CopFlashOverrun(cfg: StripConfig, swapped: bool)
    requires Valid(cfg)
    ensures Dropped(CopLightsAlternatingStep(cfg, swapped).flash, cfg.ledCount) ==
            [Write(cfg.ledCount, Named(White, cfg.saturation))]
  {
    var white := Named(White, cfg.saturation);
    DroppedFill(cfg.startLed, cfg.ledCount, white, cfg.ledCount);
    assert Fill(cfg.ledCount, cfg.ledCount, white) == [Write(cfg.ledCount, white)];
  }

  /** The second half writes index `LED_COUNT` too; the first half stays
      inside the strip. */
  lemma CopHalvesOverrun(cfg: StripConfig, swapped: bool)
    requires Valid(cfg)
    ensures Dropped(CopLightsAlternatingStep(cfg, swapped).halves, cfg.ledCount) ==
            [Write(cfg.ledCount, CopColorsFor(cfg, swapped).second)]
  {
    var colors := CopColorsFor(cfg, swapped);
    TwoFillsOverrun(cfg.startLed, Median(cfg), cfg.ledCount, colors.first, colors.second);
  }

  /** Two consecutive fills, the second ending at the strip length `n`:
      only the second's last write falls outside. */
  lemma TwoFillsOverrun(lo: int, mid: int, n: int, c1: RgbColor, c2: RgbColor)
    requires 0 <= lo <= mid < n
    ensures Dropped(Fill(lo, mid, c1) + Fill(mid, n, c2), n) == [Write(n, c2)]
  {
    DroppedConcat(Fill(lo, mid, c1), Fill(mid, n, c2), n);
    assert Dropped(Fill(lo, mid, c1), n) == [] by {
      DroppedFill(lo, mid, c1, n);
      assert Fill(n, mid, c1) == [];
    }
    assert Dropped(Fill(mid, n, c2), n) == [Write(n, c2)] by {
      DroppedFill(mid, n, c2, n);
      var last := Fill(n, n, c2);
      assert |last| == 1 && last[0].index == n && last[0].color == c2;
      assert last == [Write(n, c2)];
    }
  }

  /*  copLightsLineOut  */

  const LineSize: int := 36

  /** Arduino's `constrain(x, lo, hi)`. */
  function Constrain(x: int, lo: int, hi: int): (r: int)
    ensures lo <= hi ==> lo <= r <= hi
    ensures lo <= x <= hi ==> r == x
    ensures x < lo ==> r == lo
    ensures lo <= hi < x ==> r == hi
  {
    if x < lo then lo else if x > hi then hi else x
  }

  /** The two white lines drawn outwards from the median, one pixel of
      each per step. */
  function LineOutLines(cfg: StripConfig): (w: seq<Write>)
    requires Valid(cfg)
    ensures |w| == LineSize
  {
    var median := Median(cfg);
    seq(LineSize, k => Write(if k % 2 == 0 then median - k / 2 else median + k / 2, Named(White, cfg.saturation)))
  }

  /** The white lines meeting in the middle, then the whole strip dark. */
  function LineOutReset(cfg: StripConfig): (w: seq<Write>)
    requires Valid(cfg)
  {
    LineOutLines(cfg) + SetAllPixels(cfg, Named(Black, cfg.saturation))
  }

  /** The four writes of every iteration: red at `p`, blue at its mirror,
      and the two line ends erased. */
  function LineOutMarks(cfg: StripConfig, p: int): (w: seq<Write>)
    requires Valid(cfg)
    ensures |w| == 4
  {
    var median := Median(cfg);
    var rLineEnd := Constrain(p - LineSize / 2, cfg.startLed, median - LineSize / 2);
    var bLineEnd := Constrain(cfg.ledCount - p + LineSize / 2, cfg.startLed, cfg.ledCount);
    var black := Named(Black, cfg.saturation);
    [Write(p, Named(Red, cfg.saturation)), Write(cfg.ledCount - p, Named(Blue, cfg.saturation)),
     Write(rLineEnd, black), Write(bLineEnd, black)]
  }

  datatype LineOutFrame = LineOutFrame(writes: seq<Write>, pixelIndex: int)

  /** One iteration of the main loop from the current `pixelIndex`. */
  function CopLightsLineOutStep(cfg: StripConfig, pixelIndex: int): (f: LineOutFrame)
    requires Valid(cfg)
    ensures var p := if pixelIndex >= Median(cfg) then cfg.startLed as int else pixelIndex;
            var n := |f.writes|;
            f.pixelIndex == p + 1 && n >= 4 &&
            f.writes[n - 4] == Write(p, Named(Red, cfg.saturation)) &&
            f.writes[n - 3] == Write(cfg.ledCount - p, Named(Blue, cfg.saturation)) &&
            f.writes[n - 2].color == Named(Black, cfg.saturation) &&
            f.writes[n - 1].color == Named(Black, cfg.saturation)
    ensures pixelIndex < Median(cfg) <==> |f.writes| == 4
  {
    var reset := pixelIndex >= Median(cfg);
    var p := if reset then cfg.startLed as int else pixelIndex;
    LineOutFrame((if reset then LineOutReset(cfg) else []) + LineOutMarks(cfg, p), p + 1)
  }

  /** The line ends are erased within the bounds `constrain` gives them,
      and `pixelIndex` stays between `START_LED` and the median. */
  lemma LineOutBounds(cfg: StripConfig, pixelIndex: int)
    requires Valid(cfg) && Median(cfg) - LineSize / 2 >= cfg.startLed
    requires cfg.startLed <= pixelIndex <= Median(cfg)
    ensures var f := CopLightsLineOutStep(cfg, pixelIndex);
            var n := |f.writes|;
            cfg.startLed <= f.writes[n - 2].index <= Median(cfg) - LineSize / 2 &&
            cfg.startLed <= f.writes[n - 1].index <= cfg.ledCount &&
            cfg.startLed <= f.pixelIndex <= Median(cfg)
    ensures pixelIndex < Median(cfg) ==> CopLightsLineOutStep(cfg, pixelIndex).pixelIndex == pixelIndex + 1
    ensures pixelIndex == Median(cfg) ==> CopLightsLineOutStep(cfg, pixelIndex).pixelIndex == cfg.startLed + 1
  {
  }

  /** The white lines stay inside the strip. */
  lemma LineOutLinesInStrip(cfg: StripConfig)
    requires Valid(cfg) && Median(cfg) - LineSize / 2 >= cfg.startLed
    ensures Dropped(LineOutLines(cfg), cfg.ledCount) == []
  {
    var w := LineOutLines(cfg);
    var median := Median(cfg);
    assert 2 * median <= cfg.ledCount + cfg.startLed;
    assert median + LineSize / 2 <= cfg.ledCount;
    forall k | 0 <= k < |w|
      ensures InStrip(w[k], cfg.ledCount)
    {
      assert median - k / 2 <= w[k].index <= median + k / 2;
    }
  }

  /** Of a reset only the `setAllPixels` write at `LED_COUNT` falls
      outside the strip. */
  lemma LineOutResetDropped(cfg: StripConfig)
    requires Valid(cfg) && Median(cfg) - LineSize / 2 >= cfg.startLed
    ensures Dropped(LineOutReset(cfg), cfg.ledCount) == [Write(cfg.ledCount, Named(Black, cfg.saturation))]
  {
    var n := cfg.ledCount as int;
    var black := Named(Black, cfg.saturation);
    DroppedConcat(LineOutLines(cfg), SetAllPixels(cfg, black), n);
    LineOutLinesInStrip(cfg);
    DroppedFill(cfg.startLed, n, black, n);
    var last := Fill(n, n, black);
    assert |last| == 1 && last[0].index == n && last[0].color == black;
    assert last == [Write(n, black)];
  }

  /** Of the four marks only the blue line's end can leave the strip: it is
      clamped to `LED_COUNT` while `p` is at most half the line length. */
  lemma LineOutMarksDropped(cfg: StripConfig, p: int)
    requires Valid(cfg) && 1 <= cfg.startLed && Median(cfg) - LineSize / 2 >= cfg.startLed
    requires cfg.startLed <= p < Median(cfg)
    ensures Dropped(LineOutMarks(cfg, p), cfg.ledCount) ==
              if p <= LineSize / 2 then [Write(cfg.ledCount, Named(Black, cfg.saturation))] else []
  {
    var w := LineOutMarks(cfg, p);
    var n := cfg.ledCount as int;
    var bLineEnd := Constrain(n - p + LineSize / 2, cfg.startLed, n);
    assert w[3] == Write(bLineEnd, Named(Black, cfg.saturation));
    assert InStrip(w[0], n) && InStrip(w[1], n) && InStrip(w[2], n);
    assert Dropped(w, n) == Dropped(w[1..], n) == Dropped(w[1..][1..], n) == Dropped(w[1..][1..][1..], n);
    assert w[1..][1..][1..] == [w[3]];
    assert bLineEnd == n <==> p <= LineSize / 2;
  }

  /** Outside a reset, the frame's only write outside the strip is the
      erasure of the blue line's end while `pixelIndex` is at most half the
      line length. A reset adds the `setAllPixels` write at `LED_COUNT`,
      and restarting at `START_LED` erases the blue line's end there too
      when `START_LED` is at most half the line length. */
  lemma LineOutOverrun(cfg: StripConfig, pixelIndex: int)
    requires Valid(cfg) && 1 <= cfg.startLed && Median(cfg) - LineSize / 2 >= cfg.startLed
    requires cfg.startLed <= pixelIndex
    ensures pixelIndex < Median(cfg) ==>
              Dropped(CopLightsLineOutStep(cfg, pixelIndex).writes, cfg.ledCount) ==
                if pixelIndex <= LineSize / 2 then [Write(cfg.ledCount, Named(Black, cfg.saturation))] else []
    ensures pixelIndex >= Median(cfg) ==>
              Dropped(CopLightsLineOutStep(cfg, pixelIndex).writes, cfg.ledCount) ==
                [Write(cfg.ledCount, Named(Black, cfg.saturation))] +
                (if cfg.startLed <= LineSize / 2 then [Write(cfg.ledCount, Named(Black, cfg.saturation))] else [])
  {
    var w := CopLightsLineOutStep(cfg, pixelIndex).writes;
    var n := cfg.ledCount as int;
    var black := Named(Black, cfg.saturation);
    if pixelIndex < Median(cfg) {
      assert w == LineOutMarks(cfg, pixelIndex);
      LineOutMarksDropped(cfg, pixelIndex);
    } else {
      assert w == LineOutReset(cfg) + LineOutMarks(cfg, cfg.startLed);
      DroppedConcat(LineOutReset(cfg), LineOutMarks(cfg, cfg.startLed), n);
      LineOutResetDropped(cfg);
      LineOutMarksDropped(cfg, cfg.startLed);
    }
  }

  /*  halloweenOrange  */

  const HalloweenLineSize: int := 12
  const HalloweenPeak: int := 74

  /** `RgbColor(v, v / 4, 0)`. */
  function Amber(v: byte): (c: RgbColor)
    ensures c.r == v && c.g == v / 4 && c.b == 0
  {
    RgbColor(v, v / 4, 0)
  }

  /** A colour the animation can write: red in `[0, 74]`, green a quarter
      of red, no blue. */
  predicate IsHalloweenShade(c: RgbColor) {
    0 <= c.r <= HalloweenPeak && c.g == c.r / 4 && c.b == 0
  }

  /** The brightness loop `for (b = start; b >= 0; b -= 4)`. */
  function BrightnessLevels(start: int): seq<int>
    decreases start + 4
  {
    if start < 0 then [] else [start] + BrightnessLevels(start - 4)
  }

  /** The loop visits `start`, `start - 4`, ... down to its last
      non-negative value. */
  lemma {:induction false} BrightnessLevelsValues(start: int)
    requires start >= -4
    ensures |BrightnessLevels(start)| == (start + 4) / 4
    ensures forall k :: 0 <= k < |BrightnessLevels(start)| ==> BrightnessLevels(start)[k] == start - 4 * k
    decreases start + 4
  {
    if start >= 0 {
      BrightnessLevelsValues(start - 4);
    }
  }

  /** In a sweep of the main loop the brightness takes the values 74, 70,
      ..., 2: nineteen values, all between 2 and 74. */
  lemma HalloweenBrightnessSweep()
    ensures |BrightnessLevels(HalloweenPeak)| == 19
    ensures forall k :: 0 <= k < 19 ==> BrightnessLevels(HalloweenPeak)[k] == 74 - 4 * k
    ensures BrightnessLevels(HalloweenPeak)[18] == 2
  {
    BrightnessLevelsValues(HalloweenPeak);
  }

  /** One block of the frame, starting at `count`: a first line of 13
      pixels and a second line of 13 pixels sharing the first line's last
      pixel. `swap` decides which line fades out while the other fades in. */
  function HalloweenBlock(count: int, brightness: byte, swap: bool): (w: seq<Write>)
    requires brightness <= HalloweenPeak
    ensures |w| == 2 * (HalloweenLineSize + 1)
    ensures forall k :: 0 <= k <= HalloweenLineSize ==>
              w[k] == Write(count + k, Amber(if swap then HalloweenPeak - brightness else brightness))
    ensures forall k :: HalloweenLineSize < k < |w| ==>
              w[k] == Write(count + k - 1, Amber(if swap then brightness else HalloweenPeak - brightness))
    ensures forall k :: 0 <= k < |w| ==> IsHalloweenShade(w[k].color)
    ensures forall k :: 0 <= k < |w| ==> count <= w[k].index <= count + 2 * HalloweenLineSize
  {
    var faded := HalloweenPeak - brightness;
    var first := if swap then Amber(faded) else Amber(brightness);
    var second := if !swap then Amber(faded) else Amber(brightness);
    Fill(count, count + HalloweenLineSize, first) + Fill(count + HalloweenLineSize, count + 2 * HalloweenLineSize, second)
  }

  /** The block loop `for (count = ...; count <= LED_COUNT; count += 24)`. */
  function HalloweenBlocks(cfg: StripConfig, count: int, brightness: byte, swap: bool): (w: seq<Write>)
    requires brightness <= HalloweenPeak
    ensures forall k :: 0 <= k < |w| ==> IsHalloweenShade(w[k].color)
    ensures forall k :: 0 <= k < |w| ==> count <= w[k].index
    ensures count <= cfg.ledCount ==> exists k :: 0 <= k < |w| && w[k].index > cfg.ledCount
    decreases cfg.ledCount + 1 - count
  {
    if count > cfg.ledCount then []
    else
      var block := HalloweenBlock(count, brightness, swap);
      var rest := HalloweenBlocks(cfg, count + 2 * HalloweenLineSize, brightness, swap);
      var w := block + rest;
      if count + 2 * HalloweenLineSize > cfg.ledCount then
        assert block[|block| - 1].index == count + 2 * HalloweenLineSize;
        assert w[|block| - 1] == block[|block| - 1];
        w
      else
        var k :| 0 <= k < |rest| && rest[k].index > cfg.ledCount;
        assert w[|block| + k] == rest[k];
        w
  }

  /** One frame of the main loop, for one brightness value. */
  function HalloweenOrangeFrame(cfg: StripConfig, brightness: byte, swap: bool): (w: seq<Write>)
    requires Valid(cfg) && brightness <= HalloweenPeak
    ensures forall k :: 0 <= k < |w| ==> IsHalloweenShade(w[k].color)
    ensures forall k :: 0 <= k < |w| ==> cfg.startLed <= w[k].index
  {
    HalloweenBlocks(cfg, cfg.startLed, brightness, swap)
  }

  /** Every frame writes past the end of the strip: the last block's second
      line always reaches beyond `LED_COUNT`. */
  lemma HalloweenOverrun(cfg: StripConfig, brightness: byte, swap: bool)
    requires Valid(cfg) && brightness <= HalloweenPeak
    ensures Dropped(HalloweenOrangeFrame(cfg, brightness, swap), cfg.ledCount) != []
  {
    var w := HalloweenOrangeFrame(cfg, brightness, swap);
    var k :| 0 <= k < |w| && w[k].index > cfg.ledCount;
    assert !InStrip(w[k], cfg.ledCount);
  }

  /*  melloYello  */

  /** `count` is the head pixel; `loopDirection` is 0 going up, 1 going
      down. */
  datatype MelloState = MelloState(count: int, loopDirection: int)

  function MelloInitial(cfg: StripConfig): MelloState {
    MelloState(cfg.startLed, 0)
  }

  const TrailLength: int := 25

  /** The colour a trail pixel gets: `RgbColor(b, b, 0)` with `b` converted
      to `uint8_t`. */
  function TrailColor(brightness: int): RgbColor {
    RgbColor(ToByte(brightness), ToByte(brightness), 0)
  }

  /** `for (i = head; i >= tail; i--) { set(i, TrailColor(b)); b--; }` */
  function TrailDown(head: int, tail: int, brightness: int): (w: seq<Write>)
    ensures |w| == if head < tail then 0 else head - tail + 1
    ensures forall k :: 0 <= k < |w| ==> w[k] == Write(head - k, TrailColor(brightness - k))
    decreases head - tail + 1
  {
    if head < tail then [] else [Write(head, TrailColor(brightness))] + TrailDown(head - 1, tail, brightness - 1)
  }

  /** `for (i = head; i <= tail; i++) { set(i, TrailColor(b)); b--; }` */
  function TrailUp(head: int, tail: int, brightness: int): (w: seq<Write>)
    ensures |w| == if tail < head then 0 else tail - head + 1
    ensures forall k :: 0 <= k < |w| ==> w[k] == Write(head + k, TrailColor(brightness - k))
    decreases tail - head + 1
  {
    if tail < head then [] else [Write(head, TrailColor(brightness))] + TrailUp(head + 1, tail, brightness - 1)
  }

  /** The direction for this iteration: down once the head reaches
      `LED_COUNT`, up again once it is back at `START_LED`. */
  function MelloDirection(cfg: StripConfig, s: MelloState): int {
    if s.count >= cfg.ledCount then 1
    else if s.count <= cfg.startLed && s.loopDirection == 1 then 0
    else s.loopDirection
  }

  /** The far end of the trail, clamped to the strip's index range. */
  function TrailEnd(cfg: StripConfig, s: MelloState): (e: int)
    ensures cfg.startLed <= cfg.ledCount ==> cfg.startLed <= e <= cfg.ledCount
  {
    if MelloDirection(cfg, s) == 0 then Constrain(s.count - TrailLength, cfg.startLed, cfg.ledCount)
    else Constrain(s.count + TrailLength, cfg.startLed, cfg.ledCount)
  }

  /** The trail of this iteration, brightest (25) at the head. */
  function MelloTrail(cfg: StripConfig, s: MelloState): (w: seq<Write>)
    ensures forall k :: 0 <= k < |w| ==>
              w[k] == Write(if MelloDirection(cfg, s) == 0 then s.count - k else s.count + k, TrailColor(TrailLength - k))
    ensures Valid(cfg) && MelloInvariant(cfg, s) ==> |w| >= 1 && w[|w| - 1].index == TrailEnd(cfg, s)
  {
    if MelloDirection(cfg, s) == 0 then TrailDown(s.count, TrailEnd(cfg, s), TrailLength)
    else TrailUp(s.count, TrailEnd(cfg, s), TrailLength)
  }

  datatype MelloFrame = MelloFrame(writes: seq<Write>, next: MelloState)

  /** One iteration: blank the head, paint the trail, mark its end green,
      and move the head one pixel in the current direction. */
  function MelloYelloStep(cfg: StripConfig, s: MelloState): (f: MelloFrame)
    ensures f.next.loopDirection == MelloDirection(cfg, s)
    ensures f.next.count == if MelloDirection(cfg, s) == 0 then s.count + 1 else s.count - 1
  {
    var dir := MelloDirection(cfg, s);
    var writes := [Write(s.count, Named(Black, cfg.saturation))] + MelloTrail(cfg, s)
                  + [Write(TrailEnd(cfg, s), TrailEndGreen)];
    MelloFrame(writes, MelloState(if dir == 0 then s.count + 1 else s.count - 1, dir))
  }

  /** The head stays between `START_LED` and `LED_COUNT` and the direction
      is 0 or 1. */
  predicate MelloInvariant(cfg: StripConfig, s: MelloState) {
    cfg.startLed <= s.count <= cfg.ledCount && (s.loopDirection == 0 || s.loopDirection == 1)
  }

  /** The head reverses at `LED_COUNT`, resumes forward at `START_LED`, and
      never leaves the range between them. */
  lemma MelloStepKeepsInvariant(cfg: StripConfig, s: MelloState)
    requires Valid(cfg) && MelloInvariant(cfg, s)
    ensures MelloInvariant(cfg, MelloYelloStep(cfg, s).next)
    ensures s.count == cfg.ledCount ==> MelloYelloStep(cfg, s).next == MelloState(cfg.ledCount - 1, 1)
    ensures s.count == cfg.startLed && s.loopDirection == 1 ==>
              MelloYelloStep(cfg, s).next == MelloState(cfg.startLed + 1, 0)
  {
  }

  /** The green marker of the trail end. */
  const TrailEndGreen: RgbColor := RgbColor(0, 15, 0)

  /** The pixels a frame leaves: green at the trail end, the trail's fading
      yellow on the rest of the trail, and never black at the head, whose
      blanking write the trail's first write always overrides. Every write
      lies between the head and the trail end. */
  lemma MelloFramePainted(cfg: StripConfig, s: MelloState)
    requires Valid(cfg) && MelloInvariant(cfg, s)
    ensures var w := MelloYelloStep(cfg, s).writes;
            Painted(w, TrailEnd(cfg, s)) == Some(TrailEndGreen)
    ensures var w := MelloYelloStep(cfg, s).writes;
            var trail := MelloTrail(cfg, s);
            forall k :: 0 <= k < |trail| - 1 ==> Painted(w, trail[k].index) == Some(TrailColor(TrailLength - k))
    ensures var w := MelloYelloStep(cfg, s).writes;
            Painted(w, s.count) == Some(if TrailEnd(cfg, s) == s.count then TrailEndGreen else TrailColor(TrailLength))
    ensures var w := MelloYelloStep(cfg, s).writes;
            forall k :: 0 <= k < |w| ==>
              if MelloDirection(cfg, s) == 0 then TrailEnd(cfg, s) <= w[k].index <= s.count
              else s.count <= w[k].index <= TrailEnd(cfg, s)
  {
    var w := MelloYelloStep(cfg, s).writes;
    var trail := MelloTrail(cfg, s);
    var te := TrailEnd(cfg, s);
    var down := MelloDirection(cfg, s) == 0;
    assert w == [Write(s.count, Named(Black, cfg.saturation))] + trail + [Write(te, TrailEndGreen)];
    assert |w| == |trail| + 2;
    assert w[|w| - 1] == Write(te, TrailEndGreen);
    forall k | 0 <= k < |trail| - 1
      ensures Painted(w, trail[k].index) == Some(TrailColor(TrailLength - k))
    {
      assert w[k + 1] == trail[k];
      forall j | k + 1 < j < |w|
        ensures w[j].index != w[k + 1].index
      {
        if j < |w| - 1 {
          assert w[j] == trail[j - 1];
        }
      }
      PaintedAt(w, k + 1);
    }
    if |trail| >= 2 {
      assert trail[0].index == s.count;
    }
    forall k | 0 <= k < |w|
      ensures if down then te <= w[k].index <= s.count else s.count <= w[k].index <= te
    {
      if 1 <= k < |w| - 1 {
        assert w[k] == trail[k - 1];
        assert trail[|trail| - 1].index == te;
      }
    }
  }

  /** A frame writes outside the strip exactly when the head or the trail
      end is at `LED_COUNT`: on the turn at the top, and on the way down
      while the trail still reaches the top. */
  lemma MelloOverrun(cfg: StripConfig, s: MelloState)
    requires Valid(cfg) && MelloInvariant(cfg, s)
    ensures Dropped(MelloYelloStep(cfg, s).writes, cfg.ledCount) != [] <==>
            s.count == cfg.ledCount || TrailEnd(cfg, s) == cfg.ledCount
  {
    var w := MelloYelloStep(cfg, s).writes;
    var trail := MelloTrail(cfg, s);
    var te := TrailEnd(cfg, s);
    assert w == [Write(s.count, Named(Black, cfg.saturation))] + trail + [Write(te, TrailEndGreen)];
    if s.count == cfg.ledCount {
      assert !InStrip(w[0], cfg.ledCount);
    } else if te == cfg.ledCount {
      assert !InStrip(w[|w| - 1], cfg.ledCount);
    } else {
      forall k | 0 <= k < |w|
        ensures InStrip(w[k], cfg.ledCount)
      {
        if 0 < k < |w| - 1 {
          assert w[k] == trail[k - 1];
        }
      }
    }
  }

  /** The state after `n` iterations. */
  function MelloRun(cfg: StripConfig, s: MelloState, n: nat): MelloState
    decreases n
  {
    if n == 0 then s else MelloRun(cfg, MelloYelloStep(cfg, s).next, n - 1)
  }

  /** From the initial state the head is always within the strip's range. */
  lemma {:induction false} MelloRunKeepsInvariant(cfg: StripConfig, s: MelloState, n: nat)
    requires Valid(cfg) && MelloInvariant(cfg, s)
    ensures MelloInvariant(cfg, MelloRun(cfg, s, n))
    decreases n
  {
    if n > 0 {
      MelloStepKeepsInvariant(cfg, s);
      MelloRunKeepsInvariant(cfg, MelloYelloStep(cfg, s).next, n - 1);
    }
  }

  /** While the invariant holds the trail end is within the range, the trail
      has at most 26 pixels, starts at brightness 25 and never goes below 0,
      so the conversion to `uint8_t` never wraps. */
  lemma MelloTrailBounds(cfg: StripConfig, s: MelloState)
    requires Valid(cfg) && MelloInvariant(cfg, s)
    ensures cfg.startLed <= TrailEnd(cfg, s) <= cfg.ledCount
    ensures 1 <= |MelloTrail(cfg, s)| <= TrailLength + 1
    ensures MelloTrail(cfg, s)[0] == Write(s.count, TrailColor(TrailLength))
    ensures forall k :: 0 <= k < |MelloTrail(cfg, s)| ==>
              MelloTrail(cfg, s)[k].color == Gray(TrailLength - k).(b := 0) && TrailLength - k >= 0
  {
  }

  /*  The two firmware configurations  */

  /** Both firmwares' constants satisfy the assumptions of the lemmas
      above: the first LED lies inside the strip, the line-out lines fit
      below the median, and the Mello yello animation starts inside its
      range on an all-dark strip. */
  lemma FirmwareConfigs()
    ensures Valid(DriverConfig) && Valid(ChristmasConfig)
    ensures Median(DriverConfig) == 123 && Median(ChristmasConfig) == 28
    ensures Median(DriverConfig) - LineSize / 2 >= DriverConfig.startLed
    ensures Median(ChristmasConfig) - LineSize / 2 >= ChristmasConfig.startLed
    ensures MelloInvariant(DriverConfig, MelloInitial(DriverConfig))
    ensures MelloInvariant(ChristmasConfig, MelloInitial(ChristmasConfig))
    ensures DriverConfig.saturation >= 2 && ChristmasConfig.saturation >= 2
    ensures |NewStrip(DriverConfig)| == 246 && NewStrip(DriverConfig)[0] == Gray(0)
  {
  }
}

=== FILE: animation_helpers.dfy ===
/** The firmware's strip configuration, its named colours and the fill
    helpers shared by the animations. */
module AnimationHelpers {
  import opened Pixels

  /** `LED_COUNT`, `START_LED` and `SATURATION`, all `uint8_t`. The strip
      object holds `ledCount` pixels, indices 0 to `ledCount - 1`. */
  datatype StripConfig = StripConfig(ledCount: byte, startLed: byte, saturation: byte)

  predicate Valid(cfg: StripConfig) {
    cfg.startLed < cfg.ledCount
  }

  /** The constants of the main driver firmware. */
  const DriverConfig: StripConfig := StripConfig(246, 1, 128)

  /** The constants of the stand-alone Christmas firmware. */
  const ChristmasConfig: StripConfig := StripConfig(56, 1, 128)

  /** A freshly constructed strip: `ledCount` dark pixels. */
  function NewStrip(cfg: StripConfig): (s: seq<RgbColor>)
    ensures |s| == cfg.ledCount
    ensures forall i :: 0 <= i < |s| ==> s[i] == Gray(0)
  {
    seq(cfg.ledCount, _ => Gray(0))
  }

  datatype ColorName = Red | Green | Blue | Pink | Yellow | Orange | Purple | White | Black

  /** The named colours, each built from `SATURATION`; no channel exceeds
      it, and black is dark. */
  function Named(name: ColorName, sat: byte): (c: RgbColor)
    ensures c.r <= sat && c.g <= sat && c.b <= sat
    ensures name == White ==> c == Gray(sat)
    ensures name == Black ==> c == Gray(0)
  {
    match name
    case Red => RgbColor(sat, 0, 0)
    case Green => RgbColor(0, sat, 0)
    case Blue => RgbColor(0, 0, sat)
    case Pink => RgbColor(sat, 0, sat)
    case Yellow => RgbColor(sat, sat, 0)
    case Orange => RgbColor(sat, sat / 2, 0)
    case Purple => RgbColor(sat / 2, 0, sat)
    case White => Gray(sat)
    case Black => Gray(0)
  }

  /** With a saturation of at least 2 the nine names give nine different
      colours (at 1, orange collapses onto red and purple onto blue). */
  lemma NamedDistinct(a: ColorName, b: ColorName, sat: byte)
    requires sat >= 2 && a != b
    ensures Named(a, sat) != Named(b, sat)
  {
  }

  /** `setAllPixels`: writes `color` to every index from `START_LED` through
      `LED_COUNT` inclusive. */
  function SetAllPixels(cfg: StripConfig, color: RgbColor): (w: seq<Write>)
    requires Valid(cfg)
    ensures Sweep(w, cfg.startLed) && |w| == cfg.ledCount - cfg.startLed + 1
    ensures forall k :: 0 <= k < |w| ==> w[k].color == color
  {
    Fill(cfg.startLed, cfg.ledCount, color)
  }

  /** On the strip, `setAllPixels` colours every pixel from `START_LED` on
      and nothing below it; its last write, to index `LED_COUNT`, lies one
      past the end of the strip. */
  lemma SetAllPixelsOnStrip(cfg: StripConfig, color: RgbColor, strip: seq<RgbColor>)
    requires Valid(cfg) && |strip| == cfg.ledCount
    ensures forall i :: cfg.startLed <= i < cfg.ledCount ==> Apply(strip, SetAllPixels(cfg, color))[i] == color
    ensures forall i :: 0 <= i < cfg.startLed ==> Apply(strip, SetAllPixels(cfg, color))[i] == strip[i]
    ensures Dropped(SetAllPixels(cfg, color), cfg.ledCount) == [Write(cfg.ledCount, color)]
  {
    var w := SetAllPixels(cfg, color);
    forall i | 0 <= i < cfg.ledCount
      ensures Apply(strip, w)[i] == if cfg.startLed <= i then color else strip[i]
    {
      PaintedSweep(w, cfg.startLed, i);
    }
    DroppedFill(cfg.startLed, cfg.ledCount, color, cfg.ledCount);
  }

  /** The fill inside `BlendAnimUpdate`: `START_LED` up to but excluding
      `LED_COUNT`. The blended colour itself is computed in floating point
      by the library and is a parameter here. */
  function BlendAnimUpdate(cfg: StripConfig, updatedColor: RgbColor): (w: seq<Write>)
    requires Valid(cfg)
    ensures Sweep(w, cfg.startLed) && |w| == cfg.ledCount - cfg.startLed
    ensures forall k :: 0 <= k < |w| ==> w[k].color == updatedColor
  {
    Fill(cfg.startLed, cfg.ledCount - 1, updatedColor)
  }

  /** The blend fill writes one pixel fewer than `setAllPixels` and never
      leaves the strip. */
  lemma BlendAnimUpdateInStrip(cfg: StripConfig, color: RgbColor)
    requires Valid(cfg)
    ensures |BlendAnimUpdate(cfg, color)| + 1 == |SetAllPixels(cfg, color)|
    ensures Dropped(BlendAnimUpdate(cfg, color), cfg.ledCount) == []
  {
    DroppedFill(cfg.startLed, cfg.ledCount - 1, color, cfg.ledCount);
  }

  /** The blend fill leaves every pixel of the strip as `setAllPixels`
      does, because the extra write of the latter is the one that is
      dropped. */
  lemma BlendAnimUpdateVersusSetAll(cfg: StripConfig, color: RgbColor, strip: seq<RgbColor>, i: int)
    requires Valid(cfg) && |strip| == cfg.ledCount && 0 <= i < cfg.ledCount
    ensures Apply(strip, BlendAnimUpdate(cfg, color))[i] == if cfg.startLed <= i then color else strip[i]
    ensures Apply(strip, BlendAnimUpdate(cfg, color))[i] == Apply(strip, SetAllPixels(cfg, color))[i]
  {
    PaintedSweep(BlendAnimUpdate(cfg, color), cfg.startLed, i);
    PaintedSweep(SetAllPixels(cfg, color), cfg.startLed, i);
  }

  /** The blend `FadeInFadeOutRinseRepeat` starts, and the new value of
      its `fadeToColor` flag. The random duration is left out. */
  datatype FadeStart = FadeStart(starting: RgbColor, ending: RgbColor, fadeToColor: bool)

  const FadeRed: RgbColor := RgbColor(140, 0, 0)
  const FadeBlue: RgbColor := RgbColor(0, 0, 175)

  /** Every call starts from light grey, heads for red when `fadeToColor`
      is set and for blue otherwise, and flips the flag. */
  function FadeInFadeOutRinseRepeat(fadeToColor: bool): (f: FadeStart)
    ensures f.fadeToColor == !fadeToColor
    ensures f.starting == Gray(175)
    ensures f.ending == (if fadeToColor then FadeRed else FadeBlue)
  {
    if fadeToColor then FadeStart(Gray(175), RgbColor(140, 0, 0), !fadeToColor)
    else FadeStart(RgbColor(175, 175, 175), RgbColor(0, 0, 175), !fadeToColor)
  }

  /** The blends started by `n` successive calls from flag value `flag`. */
  function FadeCalls(flag: bool, n: nat): seq<FadeStart>
    decreases n
  {
    if n == 0 then []
    else
      var f := FadeInFadeOutRinseRepeat(flag);
      [f] + FadeCalls(f.fadeToColor, n - 1)
  }

  /** From the initial flag (set), successive calls alternate: the even
      calls fade towards red, the odd ones towards blue. */
  lemma {:induction false} FadeCallsAlternate(flag: bool, n: nat)
    ensures |FadeCalls(flag, n)| == n
    ensures forall k :: 0 <= k < n ==>
              FadeCalls(flag, n)[k].ending == (if (k % 2 == 0) == flag then FadeRed else FadeBlue)
    decreases n
  {
    if n > 0 {
      FadeCallsAlternate(!flag, n - 1);
      var calls := FadeCalls(flag, n);
      forall k | 1 <= k < n
        ensures calls[k].ending == (if (k % 2 == 0) == flag then FadeRed else FadeBlue)
      {
        assert calls[k] == FadeCalls(!flag, n - 1)[k - 1];
      }
    }
  }
}

=== FILE: animations.dfy ===
/** The firmware's animation table: id, display name and handler of each
    selectable animation, closed by an all-zero sentinel entry. */
module Animations {
  import opened Optional

  /** Every animation handler the firmware defines. */
  datatype Handler =
    | CopLightsAlternating
    | CopLightsLineOut
    | CopLightsMix
    | RainyDay
    | ChristmasRGDance
    | HalloweenOrange
    | MelloYello
    | YuleLog

  /** A table entry; `None` is a null pointer. */
  datatype TableEntry = TableEntry(id: int, name: Option<string>, handler: Option<Handler>)

  /** The `{ NULL }` terminator: id 0, null name, null handler. */
  predicate IsSentinel(e: TableEntry) {
    e.id == 0 && e.name.None? && e.handler.None?
  }

  const AnimationCount: int := 4

  /** The table, `animationCount + 1` slots: the registered animations with
      ids 1 to 4 in order, then the sentinel. */
  function AnimationTable(): (t: seq<TableEntry>)
    ensures |t| == AnimationCount + 1
    ensures forall i :: 0 <= i < AnimationCount ==> t[i].id == i + 1 && t[i].name.Some? && t[i].handler.Some?
    ensures IsSentinel(t[AnimationCount])
  {
    [ TableEntry(1, Some("Cop Lights Alternating"), Some(CopLightsAlternating)),
      TableEntry(2, Some("Cop Lights Line Out"), Some(CopLightsLineOut)),
      TableEntry(3, Some("Cop Lights Mix"), Some(CopLightsMix)),
      TableEntry(4, Some("Rainy Day"), Some(RainyDay)),
      TableEntry(0, None, None) ]
  }

  /** The entries before the first sentinel. */
  function Registered(t: seq<TableEntry>): (r: seq<TableEntry>)
    ensures |r| <= |t| && r == t[..|r|]
    ensures forall i :: 0 <= i < |r| ==> !IsSentinel(r[i])
    ensures |r| < |t| ==> IsSentinel(t[|r|])
    decreases |t|
  {
    if |t| == 0 || IsSentinel(t[0]) then [] else [t[0]] + Registered(t[1..])
  }

  /** The first registered entry with id `id`, scanning up to the sentinel. */
  function Lookup(t: seq<TableEntry>, id: int): (r: Option<TableEntry>)
    ensures r.Some? ==> r.value.id == id && r.value in Registered(t)
    ensures r.None? ==> forall i :: 0 <= i < |Registered(t)| ==> Registered(t)[i].id != id
    decreases |t|
  {
    if |t| == 0 || IsSentinel(t[0]) then None
    else if t[0].id == id then Some(t[0])
    else Lookup(t[1..], id)
  }

  /** How many registered entries carry id `id`. */
  function Occurrences(t: seq<TableEntry>, id: int): nat {
    |set i | 0 <= i < |Registered(t)| && Registered(t)[i].id == id|
  }

  /** A scan of the table that stops at the sentinel or at the end, and
      returns the slot holding `id`. */
  method FindAnimation(t: seq<TableEntry>, id: int) returns (slot: Option<nat>)
    ensures slot.Some? ==> slot.value < |Registered(t)| && t[slot.value].id == id
    ensures slot.Some? ==> forall j :: 0 <= j < slot.value ==> t[j].id != id
    ensures slot.None? ==> forall j :: 0 <= j < |Registered(t)| ==> Registered(t)[j].id != id
    ensures slot.Some? ==> Lookup(t, id) == Some(t[slot.value])
    ensures slot.None? <==> Lookup(t, id).None?
  {
    var i := 0;
    while i < |t| && !IsSentinel(t[i])
      invariant 0 <= i <= |Registered(t)|
      invariant forall j :: 0 <= j < i ==> t[j].id != id
    {
      if t[i].id == id {
        LookupFirst(t, id, i);
        return Some(i);
      }
      i := i + 1;
    }
    return None;
  }

  /** `Lookup` returns the first registered entry carrying the id, the one
      the scan stops at. */
  lemma {:induction false} LookupFirst(t: seq<TableEntry>, id: int, i: nat)
    requires i < |Registered(t)| && t[i].id == id
    requires forall j :: 0 <= j < i ==> t[j].id != id
    ensures Lookup(t, id) == Some(t[i])
    decreases i
  {
    assert Registered(t)[0] == t[0];
    if i > 0 {
      assert t[0].id != id;
      assert Registered(t) == [t[0]] + Registered(t[1..]);
      forall j | 0 <= j < i - 1
        ensures t[1..][j].id != id
      {
        assert t[1..][j] == t[j + 1];
      }
      LookupFirst(t[1..], id, i - 1);
    }
  }

  lemma RegisteredOfTable()
    ensures Registered(AnimationTable()) == AnimationTable()[..AnimationCount]
  {
    var t := AnimationTable();
    assert t[1..][1..][1..][1..][0] == t[4];
  }

  /** Registered ids are positive and distinct, so each of ids 1 to 4 is
      found exactly once, at slot `id - 1`, and every other id, 0 included,
      is not found. */
  lemma EveryRegisteredIdFoundOnce(id: int)
    ensures 1 <= id <= AnimationCount ==>
              Lookup(AnimationTable(), id) == Some(AnimationTable()[id - 1]) && Occurrences(AnimationTable(), id) == 1
    ensures !(1 <= id <= AnimationCount) ==>
              Lookup(AnimationTable(), id).None? && Occurrences(AnimationTable(), id) == 0
  {
    var t := AnimationTable();
    RegisteredOfTable();
    var r := Registered(t);
    var hits := set i | 0 <= i < |r| && r[i].id == id;
    if 1 <= id <= AnimationCount {
      assert hits == {id - 1};
    } else {
      assert hits == {};
    }
  }

  /** christmasRGDance, halloweenOrange, melloYello and yuleLog have no
      table entry: no id reaches them. */
  lemma UnlistedHandlersUnreachable(id: int)
    ensures Lookup(AnimationTable(), id).Some? ==>
              Lookup(AnimationTable(), id).value.handler !in
                {Some(ChristmasRGDance), Some(HalloweenOrange), Some(MelloYello), Some(YuleLog)}
  {
    EveryRegisteredIdFoundOnce(id);
  }
}

=== FILE: dev_proxy.dfy ===
/** The development server's proxy rule: only request paths that begin with
    `/api` are forwarded to the device; every other path is answered by the
    development server itself. */
module DevProxy {

  const ProxyPrefix: string := "/api"

  predicate Forwarded(path: string) {
    ProxyPrefix <= path
  }
}

=== FILE: effect_picker.dfy ===
/** The effect panel: a hue picker whose committed colour is sent to the
    device as three raw query parameters. */
module EffectPicker {
  import opened Optional
  import opened Text
  import DevProxy

  /** The picker's `color.rgb`: integer channels and an alpha the request
      never uses. */
  datatype PickerRgb = PickerRgb(r: int, g: int, b: int, a: real)

  /** A plain colour triple, as held in `primaryColor`. */
  datatype Rgb = Rgb(r: int, g: int, b: int)

  /** `primaryColor` is what the picker displays; `selectedColor` is the
      last colour the device acknowledged (absent until then). */
  datatype PickerState = PickerState(primaryColor: Rgb, selectedColor: Option<PickerRgb>)

  const EffectPrefix: string := "/api/effects/set?"

  function Initial(): (s: PickerState)
    ensures s.primaryColor == Rgb(0, 0, 0) && s.selectedColor.None?
  {
    PickerState(Rgb(0, 0, 0), None)
  }

  /** The value of a `key=value` pair whose key is `key`. */
  function Param(pair: string, key: string): Option<int> {
    var kv := Split(pair, '=');
    if |kv| == 2 && kv[0] == key then ParseInt(kv[1]) else None
  }

  /** The colour an effect request carries: exactly the three pairs `r`,
      `g`, `b` in that order, and nothing else. */
  function ParseEffectQuery(url: string): (c: Option<Rgb>)
    ensures c.Some? ==> EffectPrefix <= url
  {
    if !(EffectPrefix <= url) then None
    else
      var pairs := Split(url[|EffectPrefix|..], '&');
      if |pairs| != 3 then None
      else
        match (Param(pairs[0], "r"), Param(pairs[1], "g"), Param(pairs[2], "b"))
        case (Some(r), Some(g), Some(b)) => Some(Rgb(r, g, b))
        case _ => None
  }

  /** The keys of the query's pairs, in order. */
  function QueryKeys(url: string): seq<string>
    requires EffectPrefix <= url
  {
    var pairs := Split(url[|EffectPrefix|..], '&');
    seq(|pairs|, i requires 0 <= i < |pairs| => Split(pairs[i], '=')[0])
  }

  lemma IntToStringHasNoDelimiter(n: int, c: char)
    requires c == '&' || c == '='
    ensures c !in IntToString(n)
  {
    if n < 0 {
      assert IntToString(n) == "-" + NatToString(-n);
      DigitsHaveNoDelimiter(NatToString(-n), c);
    } else {
      DigitsHaveNoDelimiter(NatToString(n), c);
    }
  }

  lemma PairSplits(key: string, n: int)
    requires '=' !in key && '&' !in key
    ensures Split(key + "=" + IntToString(n), '=') == [key, IntToString(n)]
    ensures '&' !in key + "=" + IntToString(n)
  {
    IntToStringHasNoDelimiter(n, '=');
    IntToStringHasNoDelimiter(n, '&');
    SplitAtFirstSeparator(key, '=', IntToString(n));
    SplitNoSeparator(IntToString(n), '=');
  }

  lemma JoinThree(x: string, y: string, z: string)
    ensures Join([x, y, z], '&') == x + "&" + y + "&" + z
  {
    assert [x, y, z][1..] == [y, z];
    assert [y, z][1..] == [z];
    assert Join([z], '&') == z;
    assert Join([y, z], '&') == y + "&" + z;
    assert Join([x, y, z], '&') == x + "&" + (y + "&" + z);
  }

  /** The concatenated request is the prefix followed by the three pairs
      joined with `&`. */
  lemma EffectUrlShape(url: string, rs: string, gs: string, bs: string)
    requires url == EffectPrefix + "r=" + rs + "&g=" + gs + "&b=" + bs
    ensures EffectPrefix <= url
    ensures url[|EffectPrefix|..] == Join(["r=" + rs, "g=" + gs, "b=" + bs], '&')
  {
    JoinThree("r=" + rs, "g=" + gs, "b=" + bs);
    assert url == EffectPrefix + (("r=" + rs) + "&" + ("g=" + gs) + "&" + ("b=" + bs));
  }

  /** The request for a committed colour: the raw channels, unscaled by
      alpha, as `r`, `g`, `b` in that order. The reference reader
      `ParseEffectQuery` (split on `&`, then on `=`, expecting the keys
      `r`, `g`, `b` in that order) recovers the three channels exactly, and
      the query has no other key; the device's own handler for the request
      is not part of this model. */
  function HandlePrimaryColorChange(color: PickerRgb): (url: string)
    ensures ParseEffectQuery(url) == Some(Rgb(color.r, color.g, color.b))
    ensures EffectPrefix <= url && QueryKeys(url) == ["r", "g", "b"]
  {
    var url := EffectPrefix + "r=" + IntToString(color.r) + "&g=" + IntToString(color.g) + "&b=" + IntToString(color.b);
    EffectRequestParses(color.r, color.g, color.b, url);
    url
  }

  /** One `key=value` pair reads back as its key and value. */
  lemma ParamOfPair(key: string, n: int)
    requires '=' !in key && '&' !in key
    ensures Param(key + "=" + IntToString(n), key) == Some(n)
    ensures Split(key + "=" + IntToString(n), '=')[0] == key
    ensures '&' !in key + "=" + IntToString(n)
  {
    PairSplits(key, n);
    ParseIntToString(n);
  }

  /** The query part of the request splits on `&` into its three pairs. */
  lemma EffectQuerySplits(r: int, g: int, b: int, url: string)
    requires url == EffectPrefix + "r=" + IntToString(r) + "&g=" + IntToString(g) + "&b=" + IntToString(b)
    ensures EffectPrefix <= url
    ensures Split(url[|EffectPrefix|..], '&') ==
            ["r" + "=" + IntToString(r), "g" + "=" + IntToString(g), "b" + "=" + IntToString(b)]
  {
    var rs, gs, bs := IntToString(r), IntToString(g), IntToString(b);
    EffectUrlShape(url, rs, gs, bs);
    assert "r=" + rs == "r" + "=" + rs && "g=" + gs == "g" + "=" + gs && "b=" + bs == "b" + "=" + bs;
    ParamOfPair("r", r);
    ParamOfPair("g", g);
    ParamOfPair("b", b);
    SplitJoin(["r=" + rs, "g=" + gs, "b=" + bs], '&');
  }

  lemma EffectRequestParses(r: int, g: int, b: int, url: string)
    requires url == EffectPrefix + "r=" + IntToString(r) + "&g=" + IntToString(g) + "&b=" + IntToString(b)
    ensures ParseEffectQuery(url) == Some(Rgb(r, g, b))
    ensures EffectPrefix <= url && QueryKeys(url) == ["r", "g", "b"]
  {
    EffectQuerySplits(r, g, b, url);
    ParamOfPair("r", r);
    ParamOfPair("g", g);
    ParamOfPair("b", b);
  }

  /** What the effect request delivers to its handler. */
  datatype EffectReply = EffectFailed | EffectAcknowledged

  /** On acknowledgement the picker's `color.rgb` is stored as
      `selectedColor`; `primaryColor` is never written. */
  function AdoptEffectReply(s: PickerState, color: PickerRgb, reply: EffectReply): (t: PickerState)
    ensures t.primaryColor == s.primaryColor
    ensures reply.EffectAcknowledged? ==> t.selectedColor == Some(color)
    ensures reply.EffectFailed? ==> t == s
  {
    match reply
    case EffectAcknowledged => s.(selectedColor := Some(color))
    case EffectFailed => s
  }

  /** One committed colour and the reply its request received. */
  datatype Change = Change(color: PickerRgb, reply: EffectReply)

  function RunChanges(s: PickerState, changes: seq<Change>): PickerState
    decreases |changes|
  {
    if |changes| == 0 then s
    else RunChanges(AdoptEffectReply(s, changes[0].color, changes[0].reply), changes[1..])
  }

  /** The colour of the latest acknowledged change, if any. */
  function LastAcknowledged(changes: seq<Change>): Option<PickerRgb>
    decreases |changes|
  {
    if |changes| == 0 then None
    else if changes[|changes| - 1].reply.EffectAcknowledged? then Some(changes[|changes| - 1].color)
    else LastAcknowledged(changes[..|changes| - 1])
  }

  lemma {:induction false} LastAcknowledgedCons(c: Change, rest: seq<Change>)
    ensures LastAcknowledged([c] + rest) ==
            if LastAcknowledged(rest).Some? then LastAcknowledged(rest)
            else if c.reply.EffectAcknowledged? then Some(c.color) else None
    decreases |rest|
  {
    var all := [c] + rest;
    if |rest| > 0 {
      assert all[..|all| - 1] == [c] + rest[..|rest| - 1];
      LastAcknowledgedCons(c, rest[..|rest| - 1]);
    }
  }

  /** Over any run of committed colours, `primaryColor` (the value the
      picker is fed) never changes, and `selectedColor` is the colour of
      the last acknowledged request, or its old value if none was. */
  lemma {:induction false} RunChangesEffect(s: PickerState, changes: seq<Change>)
    ensures RunChanges(s, changes).primaryColor == s.primaryColor
    ensures RunChanges(s, changes).selectedColor ==
            if LastAcknowledged(changes).Some? then LastAcknowledged(changes) else s.selectedColor
    decreases |changes|
  {
    if |changes| > 0 {
      var t := AdoptEffectReply(s, changes[0].color, changes[0].reply);
      RunChangesEffect(t, changes[1..]);
      LastAcknowledgedCons(changes[0], changes[1..]);
      assert [changes[0]] + changes[1..] == changes;
    }
  }

  /** The effect request goes through the development proxy. */
  lemma EffectRequestForwarded(color: PickerRgb)
    ensures DevProxy.Forwarded(HandlePrimaryColorChange(color))
  {
    var url := HandlePrimaryColorChange(color);
    assert url[..4] == EffectPrefix[..4];
  }
}

=== FILE: menu_content.dfy ===
/** The application shell: which panel is shown, whether the side drawer is
    open, and the power value last reported by the device. Network replies are
    inputs to the transitions; rendering is reduced to the values the chrome
    shows (title, panel, power-button colour). */
module MenuContent {
  import opened Optional
  import DevProxy

  /** The raw `data.status.powerOn` value as the browser stores it. The
      shell compares it with a strict `switch`, so a number and a boolean
      are different values; `Other` stands for anything else (a string,
      `null`, an absent field). */
  datatype PowerValue = Num(n: int) | Bool(b: bool) | Other

  /** The panels the content registry can show. */
  datatype Panel = AnimationButtonListPanel | EffectPickerPanel

  datatype ContentEntry = ContentEntry(content: Panel, title: string)

  /** The content registry: only the animation list and the effect picker
      are wired in. */
  const ContentMap: map<string, ContentEntry> :=
    map["animations" := ContentEntry(AnimationButtonListPanel, "Animations"),
        "effects" := ContentEntry(EffectPickerPanel, "Effects")]

  /** The ids the drawer's two menu entries emit, in display order. */
  const MenuIds: seq<string> := ["animations", "effects"]

  const StatusPath: string := "/api/status"
  const TogglePath: string := "/api/power/toggle"

  datatype ShellState = ShellState(power: PowerValue, mobileOpen: bool, contentId: string)

  function Initial(): (s: ShellState)
    ensures s.power == Num(0) && !s.mobileOpen && s.contentId == "animations"
    ensures s.contentId in ContentMap
  {
    ShellState(Num(0), false, "animations")
  }

  /** The drawer toggle flips `mobileOpen` and touches nothing else. */
  function HandleDrawerToggle(s: ShellState): (t: ShellState)
    ensures t.mobileOpen != s.mobileOpen
    ensures t.power == s.power && t.contentId == s.contentId
  {
    s.(mobileOpen := !s.mobileOpen)
  }

  /** Choosing a menu entry shows that panel and closes the drawer,
      whatever the drawer's previous state. */
  function HandleMenuButtonClick(s: ShellState, buttonId: string): (t: ShellState)
    ensures t.contentId == buttonId && !t.mobileOpen
    ensures t.power == s.power
  {
    s.(contentId := buttonId, mobileOpen := false)
  }

  /** What a status or toggle request delivers to its handler: `NoReply`
      when the request or the JSON parse failed, `Reply(None)` when the body
      has no `status` object (the handler throws before `setState`), and
      `Reply(Some(v))` with `v` the body's `status.powerOn`. */
  datatype StatusReply = NoReply | Reply(status: Option<PowerValue>)

  /** The shared handler of the status poll and the power toggle: the
      device's value is adopted verbatim; on any failure nothing changes. */
  function AdoptStatus(s: ShellState, reply: StatusReply): (t: ShellState)
    ensures reply.Reply? && reply.status.Some? ==> t.power == reply.status.value
    ensures !(reply.Reply? && reply.status.Some?) ==> t == s
    ensures t.mobileOpen == s.mobileOpen && t.contentId == s.contentId
  {
    match reply
    case Reply(Some(v)) => s.(power := v)
    case _ => s
  }

  /** The power button's background: the strict `switch` matches only the
      numbers 0 and 1, and the default branch is red. */
  function ButtonColor(power: PowerValue): (color: string)
    ensures color == "green" <==> power == Num(1)
    ensures color == "red" <==> power != Num(1)
  {
    match power
    case Num(0) => "red"
    case Num(1) => "green"
    case _ => "red"
  }

  /** The app-bar title for the current panel; `None` where the source's
      `contentMap[id].title` would throw on an unregistered id. */
  function VisibleTitle(s: ShellState): (title: Option<string>)
    ensures title.Some? <==> s.contentId in ContentMap
    ensures title.Some? ==> title.value == ContentMap[s.contentId].title
  {
    if s.contentId in ContentMap then Some(ContentMap[s.contentId].title) else None
  }

  /** The panel rendered in the main area; `None` on an unregistered id. */
  function VisibleContent(s: ShellState): (panel: Option<Panel>)
    ensures panel.Some? <==> s.contentId in ContentMap
    ensures panel.Some? ==> panel.value == ContentMap[s.contentId].content
  {
    if s.contentId in ContentMap then Some(ContentMap[s.contentId].content) else None
  }

  /** Everything that can happen to a mounted shell. */
  datatype Event =
    | Mounted
    | DrawerToggled
    | MenuButtonClicked(id: string)
    | PowerButtonClicked
    | StatusArrived(reply: StatusReply)
    | ToggleArrived(reply: StatusReply)

  /** The state after an event and the request the event sends, if any. */
  datatype Transition = Transition(next: ShellState, request: Option<string>)

  function Step(s: ShellState, e: Event): (t: Transition)
    ensures t.request.Some? <==> e.Mounted? || e.PowerButtonClicked?
    ensures e.Mounted? ==> t.request == Some(StatusPath)
    ensures e.PowerButtonClicked? ==> t.request == Some(TogglePath)
    ensures e.Mounted? || e.PowerButtonClicked? ==> t.next == s
    ensures e.DrawerToggled? ==> t.next == HandleDrawerToggle(s)
    ensures e.MenuButtonClicked? ==> t.next == HandleMenuButtonClick(s, e.id)
    ensures e.StatusArrived? || e.ToggleArrived? ==> t.next == AdoptStatus(s, e.reply)
  {
    match e
    case Mounted => Transition(s, Some(StatusPath))
    case DrawerToggled => Transition(HandleDrawerToggle(s), None)
    case MenuButtonClicked(id) => Transition(HandleMenuButtonClick(s, id), None)
    case PowerButtonClicked => Transition(s, Some(TogglePath))
    case StatusArrived(reply) => Transition(AdoptStatus(s, reply), None)
    case ToggleArrived(reply) => Transition(AdoptStatus(s, reply), None)
  }

  /** The state after a sequence of events, applied one at a time. */
  function Run(s: ShellState, events: seq<Event>): ShellState
    decreases |events|
  {
    if |events| == 0 then s else Run(Step(s, events[0]).next, events[1..])
  }

  /** An event the rendered shell can actually produce: menu clicks carry
      one of the drawer's ids. */
  predicate FromUi(e: Event) {
    e.MenuButtonClicked? ==> e.id in MenuIds
  }

  /** Two drawer toggles restore the original state. */
  lemma DrawerToggleTwiceRestores(s: ShellState)
    ensures HandleDrawerToggle(HandleDrawerToggle(s)) == s
  {
  }

  /** Repeating a menu selection changes nothing more. */
  lemma MenuButtonClickIdempotent(s: ShellState, id: string)
    ensures HandleMenuButtonClick(HandleMenuButtonClick(s, id), id) == HandleMenuButtonClick(s, id)
  {
  }

  /** The adopted power value depends on the reply alone, never on the value
      held before: the shell does not negate its own state on a toggle. */
  lemma AdoptedPowerIgnoresPrior(s1: ShellState, s2: ShellState, v: PowerValue)
    ensures AdoptStatus(s1, Reply(Some(v))).power == AdoptStatus(s2, Reply(Some(v))).power == v
  {
  }

  /** The power value changes only when a status or toggle reply carrying a
      value arrives, and then it becomes exactly that value. */
  lemma PowerChangesOnlyByReply(s: ShellState, e: Event)
    ensures Step(s, e).next.power != s.power ==>
              (e.StatusArrived? || e.ToggleArrived?) &&
              e.reply.Reply? && e.reply.status.Some? &&
              Step(s, e).next.power == e.reply.status.value
  {
  }

  /** The registry covers both ids the menu emits, with their titles and
      panels. */
  lemma RegistryCoversMenu()
    ensures forall i :: 0 <= i < |MenuIds| ==> MenuIds[i] in ContentMap
    ensures ContentMap["animations"] == ContentEntry(AnimationButtonListPanel, "Animations")
    ensures ContentMap["effects"] == ContentEntry(EffectPickerPanel, "Effects")
    ensures ContentMap.Keys == {"animations", "effects"}
  {
  }

  /** Whatever sequence of UI events and replies a shell sees from its
      initial state, the title and panel lookups stay defined. */
  lemma {:induction false} RunKeepsContentRegistered(s: ShellState, events: seq<Event>)
    requires s.contentId in ContentMap
    requires forall i :: 0 <= i < |events| ==> FromUi(events[i])
    ensures VisibleTitle(Run(s, events)).Some?
    ensures VisibleContent(Run(s, events)).Some?
    decreases |events|
  {
    if |events| > 0 {
      var t := Step(s, events[0]).next;
      assert FromUi(events[0]);
      assert t.contentId in ContentMap;
      RunKeepsContentRegistered(t, events[1..]);
    }
  }

  /** After any sequence of UI events the power value is either the initial
      one or a value some reply delivered; it is never made up locally. */
  lemma {:induction false} RunPowerFromReplies(s: ShellState, events: seq<Event>)
    ensures var p := Run(s, events).power;
            p == s.power ||
            exists i :: 0 <= i < |events| && (events[i].StatusArrived? || events[i].ToggleArrived?) &&
                        events[i].reply == Reply(Some(p))
    decreases |events|
  {
    if |events| > 0 {
      var t := Step(s, events[0]).next;
      RunPowerFromReplies(t, events[1..]);
      var p := Run(s, events).power;
      assert Run(s, events) == Run(t, events[1..]);
      if p == t.power {
        PowerChangesOnlyByReply(s, events[0]);
        if p != s.power {
          assert events[0].reply == Reply(Some(p));
        }
      } else {
        var i :| 0 <= i < |events[1..]| && (events[1..][i].StatusArrived? || events[1..][i].ToggleArrived?) &&
                 events[1..][i].reply == Reply(Some(p));
        assert events[i + 1] == events[1..][i];
      }
    }
  }

  /** Both device requests go through the development proxy. */
  lemma ShellRequestsForwarded()
    ensures DevProxy.Forwarded(StatusPath) && DevProxy.Forwarded(TogglePath)
  {
  }
}

=== FILE: optional.dfy ===
/** The optional-value datatype shared by the model: `None` stands for the
    source's `null`, an absent JSON field, or a lookup that finds nothing. */
module Optional {

  datatype Option<+T> = None | Some(value: T) {

    /** The value, or `default` when there is none. */
    function GetOr(default: T): T {
      match this
      case Some(v) => v
      case None => default
    }
  }
}

=== FILE: pixels.dfy ===
/** Pixel colours and the strip they are written to. A frame is modelled as
    its write log: the `SetPixelColor(index, color)` calls in the order the
    firmware makes them. `Apply` plays a log onto a strip of explicit length
    (the library keeps writes inside the strip and ignores the rest), and
    `Dropped` lists the writes that fall outside it, so that an overrun is
    visible in the model rather than silently absorbed. */
module Pixels {
  import opened Optional

  /** An 8-bit unsigned channel (`uint8_t`). */
  type byte = x: int | 0 <= x < 256

  /** C's conversion of an `int` to `uint8_t`: the value modulo 256. */
  function ToByte(x: int): (b: byte)
    ensures 0 <= x < 256 ==> b == x
    ensures (b - x) % 256 == 0
  {
    x % 256
  }

  datatype RgbColor = RgbColor(r: byte, g: byte, b: byte)

  /** `RgbColor(brightness)`: the same value on all three channels. */
  function Gray(v: byte): (c: RgbColor)
    ensures c.r == v && c.g == v && c.b == v
  {
    RgbColor(v, v, v)
  }

  datatype Write = Write(index: int, color: RgbColor)

  /** The colour of the last write to pixel `i`, if the log writes it. */
  function Painted(w: seq<Write>, i: int): Option<RgbColor>
    decreases |w|
  {
    if |w| == 0 then None
    else if w[|w| - 1].index == i then Some(w[|w| - 1].color)
    else Painted(w[..|w| - 1], i)
  }

  /** A pixel has a colour exactly when some write targets it, and that
      colour is one the log actually wrote there. */
  lemma {:induction false} PaintedWitness(w: seq<Write>, i: int)
    ensures Painted(w, i).Some? <==> exists k :: 0 <= k < |w| && w[k].index == i
    ensures Painted(w, i).Some? ==> exists k :: 0 <= k < |w| && w[k] == Write(i, Painted(w, i).value)
    decreases |w|
  {
    if |w| > 0 && w[|w| - 1].index != i {
      var front := w[..|w| - 1];
      PaintedWitness(front, i);
      if Painted(front, i).Some? {
        var k :| 0 <= k < |front| && front[k] == Write(i, Painted(front, i).value);
        assert w[k] == front[k];
      }
      forall k | 0 <= k < |front| && front[k].index == i
        ensures Painted(front, i).Some?
      {
      }
      if Painted(w, i).None? {
        forall k | 0 <= k < |w|
          ensures w[k].index != i
        {
          if k < |front| {
            assert w[k] == front[k];
          }
        }
      }
    }
  }

  /** The strip after a log is played onto it: every in-range pixel shows
      its last write, untouched pixels keep their colour, and writes outside
      the strip change nothing. */
  function Apply(strip: seq<RgbColor>, w: seq<Write>): (s: seq<RgbColor>)
    ensures |s| == |strip|
    ensures forall i :: 0 <= i < |s| ==> s[i] == Painted(w, i).GetOr(strip[i])
    decreases |w|
  {
    if |w| == 0 then strip
    else
      var s := Apply(strip, w[..|w| - 1]);
      var last := w[|w| - 1];
      if 0 <= last.index < |s| then s[last.index := last.color] else s
  }

  predicate InStrip(w: Write, n: int) {
    0 <= w.index < n
  }

  /** The writes of a log that fall outside a strip of `n` pixels, in log
      order. */
  function Dropped(w: seq<Write>, n: int): (d: seq<Write>)
    ensures d == [] <==> forall k :: 0 <= k < |w| ==> InStrip(w[k], n)
    ensures forall k :: 0 <= k < |d| ==> !InStrip(d[k], n)
    ensures |d| <= |w|
    decreases |w|
  {
    if |w| == 0 then []
    else if InStrip(w[0], n) then Dropped(w[1..], n)
    else [w[0]] + Dropped(w[1..], n)
  }

  /** `Dropped` invents no write and misses none: its entries are exactly
      the log's writes that fall outside the strip. */
  lemma {:induction false} DroppedMembers(w: seq<Write>, n: int)
    ensures forall x :: x in Dropped(w, n) <==> x in w && !InStrip(x, n)
    decreases |w|
  {
    if |w| > 0 {
      DroppedMembers(w[1..], n);
      assert w == [w[0]] + w[1..];
    }
  }

  /** The log writes pixels `lo`, `lo + 1`, ... in that order. */
  predicate Sweep(w: seq<Write>, lo: int) {
    forall k :: 0 <= k < |w| ==> w[k].index == lo + k
  }

  /** A `for (i = lo; i <= hi; i++) SetPixelColor(i, c)` loop. */
  function Fill(lo: int, hi: int, c: RgbColor): (w: seq<Write>)
    ensures |w| == if hi < lo then 0 else hi - lo + 1
    ensures Sweep(w, lo)
    ensures forall k :: 0 <= k < |w| ==> w[k].color == c
  {
    seq(if hi < lo then 0 else hi - lo + 1, k => Write(lo + k, c))
  }

  /** In a sweep every pixel is written once, so its colour is that of its
      own write. */
  lemma {:induction false} PaintedSweep(w: seq<Write>, lo: int, i: int)
    requires Sweep(w, lo)
    ensures Painted(w, i) == if lo <= i < lo + |w| then Some(w[i - lo].color) else None
    decreases |w|
  {
    if |w| > 0 {
      PaintedSweep(w[..|w| - 1], lo, i);
    }
  }

  /** A write that no later write of the log overrides decides its
      pixel's colour. */
  lemma {:induction false} PaintedAt(w: seq<Write>, k: int)
    requires 0 <= k < |w|
    requires forall j :: k < j < |w| ==> w[j].index != w[k].index
    ensures Painted(w, w[k].index) == Some(w[k].color)
    decreases |w|
  {
    if k < |w| - 1 {
      var front := w[..|w| - 1];
      assert front[k] == w[k];
      forall j | k < j < |front|
        ensures front[j].index != front[k].index
      {
        assert front[j] == w[j];
      }
      PaintedAt(front, k);
    }
  }

  /** A later log overrides an earlier one pixel by pixel. */
  lemma {:induction false} PaintedConcat(a: seq<Write>, b: seq<Write>, i: int)
    ensures Painted(a + b, i) == if Painted(b, i).Some? then Painted(b, i) else Painted(a, i)
    decreases |b|
  {
    if |b| > 0 {
      assert (a + b)[..|a + b| - 1] == a + b[..|b| - 1];
      PaintedConcat(a, b[..|b| - 1], i);
    } else {
      assert a + b == a;
    }
  }

  lemma {:induction false} DroppedConcat(a: seq<Write>, b: seq<Write>, n: int)
    ensures Dropped(a + b, n) == Dropped(a, n) + Dropped(b, n)
    decreases |a|
  {
    if |a| == 0 {
      assert a + b == b;
    } else {
      assert (a + b)[1..] == a[1..] + b;
      DroppedConcat(a[1..], b, n);
    }
  }

  /** A fill that starts inside a strip of `n` pixels overruns it by exactly
      the writes from `n` to `hi`. */
  lemma {:induction false} DroppedFill(lo: int, hi: int, c: RgbColor, n: int)
    requires 0 <= lo <= n
    ensures Dropped(Fill(lo, hi, c), n) == Fill(n, hi, c)
    decreases hi - lo
  {
    var w := Fill(lo, hi, c);
    if hi < lo {
    } else if lo == n {
      DroppedFillOutside(lo, hi, c, n);
    } else {
      assert w[1..] == Fill(lo + 1, hi, c);
      DroppedFill(lo + 1, hi, c, n);
    }
  }

  lemma {:induction false} DroppedFillOutside(lo: int, hi: int, c: RgbColor, n: int)
    requires n <= lo
    ensures Dropped(Fill(lo, hi, c), n) == Fill(lo, hi, c)
    decreases hi - lo
  {
    var w := Fill(lo, hi, c);
    if lo <= hi {
      assert w[1..] == Fill(lo + 1, hi, c);
      DroppedFillOutside(lo + 1, hi, c, n);
      assert w == [w[0]] + w[1..];
    }
  }

  /** A sweep from inside a strip of `n` pixels loses exactly its writes
      from index `n` on. */
  lemma {:induction false} DroppedSweep(w: seq<Write>, lo: int, n: int)
    requires Sweep(w, lo) && 0 <= lo <= n
    ensures Dropped(w, n) == if n - lo <= |w| then w[n - lo..] else []
    decreases |w|
  {
    if |w| > 0 {
      if lo == n {
        DroppedSweepOutside(w, lo, n);
      } else {
        DroppedSweep(w[1..], lo + 1, n);
        if n - lo <= |w| {
          assert w[1..][n - lo - 1..] == w[n - lo..];
        }
      }
    }
  }

  lemma {:induction false} DroppedSweepOutside(w: seq<Write>, lo: int, n: int)
    requires Sweep(w, lo) && n <= lo
    ensures Dropped(w, n) == w
    decreases |w|
  {
    if |w| > 0 {
      DroppedSweepOutside(w[1..], lo + 1, n);
      assert w == [w[0]] + w[1..];
    }
  }
}

=== FILE: text.dfy ===
/** Decimal rendering and parsing of integers, and splitting a string on a
    separator character: the string operations the browser client relies on
    when it builds query strings by concatenation (`'?id=' + id`). */
module Text {
  import opened Optional

  predicate IsDigit(c: char) {
    '0' <= c <= '9'
  }

  predicate AllDigits(s: string) {
    forall i :: 0 <= i < |s| ==> IsDigit(s[i])
  }

  function DigitValue(c: char): (d: nat)
    requires IsDigit(c)
    ensures d < 10
  {
    (c as int) - ('0' as int)
  }

  function DigitChar(d: nat): (c: char)
    requires d < 10
    ensures IsDigit(c) && DigitValue(c) == d
  {
    (('0' as int) + d) as char
  }

  /** Decimal digits of `n`, most significant first, without leading zeros
      (JavaScript's `String(n)` for a non-negative integer below 2^53,
      where numbers are exact and not written in exponent form). */
  function NatToString(n: nat): (s: string)
    ensures |s| >= 1 && AllDigits(s)
    ensures |s| > 1 ==> s[0] != '0'
    decreases n
  {
    if n < 10 then [DigitChar(n)] else NatToString(n / 10) + [DigitChar(n % 10)]
  }

  /** JavaScript's `String(n)` for an integral number of magnitude below
      2^53: a minus sign and the digits of the magnitude when negative. */
  function IntToString(n: int): (s: string)
    ensures |s| >= 1
    ensures s[0] == '-' <==> n < 0
  {
    if n < 0 then "-" + NatToString(-n) else NatToString(n)
  }

  /** Value of a string of decimal digits, read most significant first. */
  function DigitsValue(s: string): nat
    requires AllDigits(s)
  {
    if |s| == 0 then 0 else DigitsValue(s[..|s| - 1]) * 10 + DigitValue(s[|s| - 1])
  }

  /** A non-empty run of decimal digits denotes a natural number; anything
      else does not. */
  function ParseNat(s: string): (r: Option<nat>)
    ensures r.Some? <==> |s| > 0 && AllDigits(s)
  {
    if |s| > 0 && AllDigits(s) then Some(DigitsValue(s)) else None
  }

  /** An optional minus sign followed by a natural number. */
  function ParseInt(s: string): (r: Option<int>)
    ensures r.Some? && r.value < 0 ==> |s| > 0 && s[0] == '-'
  {
    if |s| > 0 && s[0] == '-' then
      match ParseNat(s[1..])
      case Some(m) => Some(0 - m as int)
      case None => None
    else
      match ParseNat(s)
      case Some(m) => Some(m as int)
      case None => None
  }

  lemma {:induction false} DigitsValueOfNatToString(n: nat)
    ensures DigitsValue(NatToString(n)) == n
    decreases n
  {
    if n >= 10 {
      var s := NatToString(n);
      assert s[..|s| - 1] == NatToString(n / 10);
      DigitsValueOfNatToString(n / 10);
    }
  }

  /** Rendering a natural number and parsing it back gives the number. */
  lemma ParseNatToString(n: nat)
    ensures ParseNat(NatToString(n)) == Some(n)
  {
    DigitsValueOfNatToString(n);
  }

  /** Rendering any integer and parsing it back gives the integer. */
  lemma ParseIntToString(n: int)
    ensures ParseInt(IntToString(n)) == Some(n)
  {
    if n < 0 {
      assert IntToString(n)[1..] == NatToString(-n);
      ParseNatToString(-n);
    } else {
      ParseNatToString(n);
      if n == 0 {
        assert IntToString(n) == "0";
      } else {
        assert IntToString(n)[0] != '-' by {
          assert IsDigit(IntToString(n)[0]);
        }
      }
    }
  }

  /** `s` cut at every occurrence of `sep` (JavaScript's `s.split(sep)` for a
      one-character separator): always at least one piece, none holding `sep`. */
  function Split(s: string, sep: char): (parts: seq<string>)
    ensures |parts| >= 1
    ensures forall i :: 0 <= i < |parts| ==> sep !in parts[i]
    decreases |s|
  {
    if |s| == 0 then [""]
    else
      var rest := Split(s[1..], sep);
      if s[0] == sep then [""] + rest
      else [[s[0]] + rest[0]] + rest[1..]
  }

  /** The pieces glued back together with `sep` between neighbours. */
  function Join(parts: seq<string>, sep: char): string
    requires |parts| >= 1
  {
    if |parts| == 1 then parts[0] else parts[0] + [sep] + Join(parts[1..], sep)
  }

  lemma {:induction false} SplitNoSeparator(a: string, sep: char)
    requires sep !in a
    ensures Split(a, sep) == [a]
    decreases |a|
  {
    if |a| > 0 {
      assert sep !in a[1..];
      SplitNoSeparator(a[1..], sep);
      assert [a[0]] + a[1..] == a;
    }
  }

  lemma {:induction false} SplitAtFirstSeparator(a: string, sep: char, b: string)
    requires sep !in a
    ensures Split(a + [sep] + b, sep) == [a] + Split(b, sep)
    decreases |a|
  {
    var s := a + [sep] + b;
    if |a| == 0 {
      assert s[1..] == b;
    } else {
      assert s[1..] == a[1..] + [sep] + b;
      assert sep !in a[1..];
      SplitAtFirstSeparator(a[1..], sep, b);
      assert [a[0]] + a[1..] == a;
    }
  }

  /** Splitting a join recovers the pieces, provided no piece holds the
      separator. */
  lemma {:induction false} SplitJoin(parts: seq<string>, sep: char)
    requires |parts| >= 1
    requires forall i :: 0 <= i < |parts| ==> sep !in parts[i]
    ensures Split(Join(parts, sep), sep) == parts
    decreases |parts|
  {
    if |parts| == 1 {
      SplitNoSeparator(parts[0], sep);
    } else {
      SplitAtFirstSeparator(parts[0], sep, Join(parts[1..], sep));
      SplitJoin(parts[1..], sep);
      assert [parts[0]] + parts[1..] == parts;
    }
  }

  /** Joining the pieces of a split recovers the string. */
  lemma {:induction false} JoinSplit(s: string, sep: char)
    ensures Join(Split(s, sep), sep) == s
    decreases |s|
  {
    if |s| > 0 {
      var rest := Split(s[1..], sep);
      JoinSplit(s[1..], sep);
      if s[0] == sep {
        assert s == [sep] + s[1..];
      } else {
        var parts := Split(s, sep);
        assert parts[1..] == rest[1..];
        if |rest| == 1 {
          assert s == [s[0]] + rest[0];
        } else {
          assert Join(rest, sep) == rest[0] + [sep] + Join(rest[1..], sep);
          assert s == [s[0]] + s[1..];
        }
      }
    }
  }

  /** Decimal digits never contain the query-string delimiters. */
  lemma DigitsHaveNoDelimiter(s: string, c: char)
    requires AllDigits(s)
    requires !IsDigit(c)
    ensures c !in s
  {
  }
}
